=== FILE: README.md ===
# Simple HTTPS server: configuration editing, restart loop, form validation, i18n

A Dafny model of three pieces of a small local HTTPS test server.

- **The server's configuration handler and restart loop** (`server/simple_https_server.py`):
  - `GET /config` returns the global configuration.
  - `POST /config` does the following:
    - pops the transient `restart` directive;
    - merges the remaining keys into the configuration, overwriting per key;
    - saves the result to the configuration file;
    - re-points the handler's directory when `resource_path` was sent;
    - answers `OK`;
    - sets the restart flag when the directive is truthy.
  - `run_server` works as follows:
    - it reads the configuration;
    - it derives host, port, resource path, certificate and key, with defaults for all but the certificate;
    - it serves until the listener is shut down;
    - it goes round again, with the configuration reloaded from the file, exactly when a restart was requested.
- **The configuration editor page** (`server/html/config.js`):
  - Every field is trimmed and its full-width digits made ASCII.
  - The port must be 1–65535 in ASCII digits.
  - The other five fields must be non-empty.
  - The submit button is disabled while any field shows an error.
  - A submission posts the six cleaned values together with `restart: true`.
- **The i18n helper** (`server/resources/__system/js/i18n.js` and `server/html/i18n.js`):
  - The initial language is taken from the URL, else from storage, else it is Japanese.
  - `setLang` relabels the page. Placeholders are used for inputs and text for everything else. Missing or empty translations are skipped, and `data-help` falls back to `''`.
  - `t(key)` falls back to the key itself.

## Module layout

- `wrappers.dfy` defines `Option` and `Result`.
- `json.dfy` defines the decoded JSON/YAML values the configuration holds.
- `decimal.dfy`:
  - digit strings and their values;
  - rendering of natural numbers;
  - Python's `int()` on a decoded value.
- `config_server.dfy` holds the request handler: `Get`, the file store, `PostConfig` and `Handle`.
- `lifecycle.dfy` holds `run_server`:
  - the effective settings of a loop turn;
  - a step function over a `Server` record of configuration, file store and phase (`Binding`, `Serving(settings, restartAfterShutdown)`, `Exited`, `Crashed`).
- `i18n.dfy` holds the helper's logic over any string tables. A page is a record holding the current language, the stored language, the document language and a sequence of abstract elements.
- `system_i18n.dfy` and `html_i18n.dfy` hold the two helpers' own `ja`/`en` tables. Each proves the tables have the shape (`I18n.Bilingual`) that the two-language facts in `i18n.dfy` assume. The two helpers' code is the same, so it is modelled once.
- `config_form.dfy` holds the editor page, with the form as a record of control values, the `errors` object and the button flag.
- `round_trip.dfy` connects the page and the server. An accepted submission is merged, restarts the loop, and the next turn binds with the submitted values. It also shows that the editor page's error messages come out translated from the editor's own tables.

Inputs from outside the program are parameters of the model:
- the file store;
- the working directory;
- the request (method, path, decoded body);
- the URL and stored language;
- the fetched configuration.

The global `CONFIG` is passed in and returned explicitly.

## Routing notes

- `HEAD /config` is not overridden. The handler inherits the library's `do_HEAD`, which serves it as a static path (`Reply.Delegated`).
- A `POST` to any path other than `/config` calls the library's `do_POST`, which does not exist. The handler raises and sends nothing (`HandlerError.NoPostHandler`).
- Any method other than GET, HEAD and POST gets the library's 501 (`Reply.NotImplemented`).
- Every request first builds a handler. The factory in `run_server` (lines 83-84) passes the live `resource_path`, else the one read at the top of the turn. The library's constructor then turns a `None` into the working directory and passes the value through `os.fspath`, which raises on anything that is not a string. A request whose handler cannot be built is lost before any `do_GET` or `do_POST` runs, and nothing changes (`HandlerError.UnusableDirectory`).
- A new string `resource_path` takes effect at once. The assignment to `self.directory` only changes the handler that is finishing. Each new handler, however, is built from the live `CONFIG`, so the next request already uses the new path. `Lifecycle.ResourcePathAppliesToNextRequest` states this.
- A `resource_path` that is neither a string nor `null` (a number, say) is merged and saved like any other value. From then on no handler can be built, so no later `POST /config` can repair it, and a restart reloads the same file. `Lifecycle.UnusableResourcePathWedges` and `Lifecycle.WedgedRun` state this.
- Static files are the library's business. The code has no resolver of its own, and none is modelled.

## Model

| member | source | states |
|---|---|---|
| Decimal.Render | server/html/config.js:64 | the decimal text of a number is a non-empty digit string without a leading zero |
| Decimal.ValueOfRender | server/html/config.js:64 | reading back the decimal text of a number gives that number |
| Decimal.ParseRendered | server/simple_https_server.py:78 | `int()` reads the decimal text of a natural number back as that number |
| Decimal.ParseRenderedNegative | server/simple_https_server.py:78 | `int()` reads `-` followed by the decimal text of `n` back as `-n` |
| Decimal.ParseIntLiteral | server/simple_https_server.py:78 | a string converts iff it is ASCII digits with an optional sign; then it denotes their value, negated for `-` |
| Decimal.PyInt | server/simple_https_server.py:78 | `int()` keeps integers, maps booleans to 0/1, raises `TypeError` on null, lists and objects, and converts a string exactly as the literal parser does (`ValueError` for anything that is not a signed digit string) |
| ConfigServer.Get | server/simple_https_server.py:77-81 | `dict.get`: the stored value when the key is present, else the default |
| ConfigServer.Truthy | server/simple_https_server.py:60 | a value is false exactly when it is `None`, `False`, `0`, `''`, `[]` or `{}` |
| ConfigServer.LoadConfig | server/simple_https_server.py:17-19 | loading succeeds iff the path is non-empty and a file is there, and yields what was last saved there |
| ConfigServer.SaveConfig | server/simple_https_server.py:22-24 | saving replaces exactly that file's contents and leaves every other file as it was |
| ConfigServer.HandlerDirectory | server/simple_https_server.py:30-34 | a handler serves the explicit directory, else the configured `resource_path`, else the working directory; a `null` there becomes the working directory; building fails exactly when the chosen value is neither `null` nor a string |
| ConfigServer.BodyObject | server/simple_https_server.py:47-50 | an empty body reads as `{}`; an undecodable body or a non-object raises |
| ConfigServer.PostConfig | server/simple_https_server.py:45-62 | sent keys other than `restart` overwrite; unsent keys are kept; `restart` is never merged; restart iff it is truthy; the file equals memory when a path is set; the directory moves iff `resource_path` was sent |
| ConfigServer.EmptyBodyChangesNothing | server/simple_https_server.py:47-50 | an empty body leaves the configuration and directory unchanged and requests no restart |
| ConfigServer.PostIsIdempotent | server/simple_https_server.py:50-56 | posting the same body twice gives the same configuration, files, directory and restart answer as posting it once |
| ConfigServer.Status | server/simple_https_server.py:36-64 | the configuration JSON and `OK` are sent with 200, an unknown method gets the library's 501, and a raised or delegated request gets no status from this handler |
| ConfigServer.Handle | server/simple_https_server.py:30-64 | a request whose handler cannot be built raises and changes nothing; otherwise `GET /config` answers the configuration; `POST /config` is the update; other GET/HEAD go to the library; a POST elsewhere raises; any other method gets 501; only `POST /config` changes state or asks for a restart |
| ConfigServer.ReadAfterWrite | server/simple_https_server.py:30-53 | after a successful update, the file holds the merged configuration, and a `GET /config` on a fresh handler built from it returns that configuration exactly when the handler can be built, raising otherwise |
| ConfigServer.UnusableResourcePathBlocksHandlers | server/simple_https_server.py:30-34 | a posted `resource_path` that is neither a string nor `null` is merged, and afterwards no handler built from the configuration can be built |
| Lifecycle.EffectiveSettings | server/simple_https_server.py:77-81 | a turn's settings use defaults for host, port, resource path and key; the port must convert (checked first); `certfile` is required |
| Lifecycle.DefaultsApply | server/simple_https_server.py:77-81 | a configuration holding only a certificate yields host `0.0.0.0`, port 443, resource path `.` and no key file |
| Lifecycle.CertfileRequired | server/simple_https_server.py:78-80 | without `certfile` no listener can be built, and once the port converts the error is the missing certificate |
| Lifecycle.Start | server/simple_https_server.py:70-72 | the loop is entered iff the configuration file loads, with its contents as the configuration |
| Lifecycle.FactoryDirectory | server/simple_https_server.py:83-84 | the factory passes the live `resource_path` when the configuration has one, else the one read at the top of the turn |
| Lifecycle.RequestDirectory | server/simple_https_server.py:83-84 | a handler serves the string the factory passes, or the working directory when that is `null`, and cannot be built exactly when it is neither |
| Lifecycle.Step | server/simple_https_server.py:74-97 | binding moves only on `Listen`: to serving exactly the effective settings of the configuration with no restart pending when they can be read, else to a crash carrying their error; a request keeps serving with the same settings and never clears a pending restart; when serving returns with a restart pending, the loop rebinds with the configuration reloaded from the file, or crashes when it no longer loads; without one it stops; a stopped server stays stopped |
| Lifecycle.Run | server/simple_https_server.py:74-97 | a stopped server ignores later events, a running one can only have started running, and the configuration path never changes |
| Lifecycle.StartPersisted | server/simple_https_server.py:70-72 | after a successful start, the file and memory agree |
| Lifecycle.StepPreservesPersisted | server/simple_https_server.py:51-53 | every request, shutdown and rebind keeps the file equal to the in-memory configuration |
| Lifecycle.RunPreservesPersisted | server/simple_https_server.py:74-97 | across any sequence of events, the file never lags behind memory |
| Lifecycle.RestartIffFlagged | server/simple_https_server.py:93-97 | when serving returns, the loop goes round again iff the flag is set, with the configuration read back from the file |
| Lifecycle.RestartFlagOnlyFromDirective | server/simple_https_server.py:60-61 | a request sets the flag iff its handler can be built and it is `POST /config` with an object carrying a truthy `restart`; a set flag stays set |
| Lifecycle.GetConfigReturnsCurrent | server/simple_https_server.py:36-41 | `GET /config` while serving returns the current configuration when its handler can be built and raises otherwise; either way nothing changes |
| Lifecycle.ResourcePathAppliesToNextRequest | server/simple_https_server.py:83-84 | a string `resource_path` sent by `POST /config` is the directory of the next handler of the same turn |
| Lifecycle.UnusableResourcePathWedges | server/simple_https_server.py:30-34 | posting a `resource_path` that is neither a string nor `null` saves it and leaves the serving server unable to build a handler |
| Lifecycle.WedgedStep | server/simple_https_server.py:30-34 | once such a value is saved, every request raises without effect and no step changes the configuration, a restart included |
| Lifecycle.WedgedRun | server/simple_https_server.py:74-97 | across any sequence of events, such a server keeps the same configuration and stays unable to build a handler |
| I18n.InitialLang | server/html/i18n.js:58-66 | the URL language if it names a table, else the stored one if it does, else `ja` |
| I18n.Lookup | server/html/i18n.js:79-80 | a translation counts iff the key has a non-empty entry |
| I18n.T | server/html/i18n.js:98-100 | `t` gives the translation when present and non-empty, else the key; it never turns a non-empty key into `''` |
| I18n.Localize | server/html/i18n.js:77-90 | a translated label goes to the placeholder of INPUT/TEXTAREA and to the text of anything else; a missing or empty one leaves both; `data-help` becomes the translation or `''` |
| I18n.SetLang | server/html/i18n.js:72-91 | an unknown language changes nothing; a known one becomes current, stored and the document's, and every element is relabelled |
| I18n.Load | server/html/i18n.js:102-103 | after loading, the current language is the initial choice with a table, and it is stored and set on the document; every element is relabelled with that table |
| I18n.ReloadKeepsLanguage | server/html/i18n.js:60-75 | with no language in the URL, a reload picks the language the previous load stored |
| I18n.ShownTextAgreesWithT | server/html/i18n.js:72-100 | after `setLang`, every labelled element shows what `t` returns for its key |
| I18n.SetLangIdempotent | server/html/i18n.js:72-91 | switching to the same language twice is switching once |
| I18n.LocalizeIdempotent | server/html/i18n.js:77-90 | relabelling an element twice with one table is relabelling once |
| I18n.LastSwitchWins | server/html/i18n.js:72-91 | when the second language labels what the first did, switching to one then the other equals switching to the second directly |
| I18n.BilingualInitialLang | server/resources/__system/js/i18n.js:70-78 | with the `ja`/`en` tables the initial language is one of the two: the URL's when it names one, else `en` only when `en` is stored |
| I18n.BilingualSetLang | server/resources/__system/js/i18n.js:85-89 | with the `ja`/`en` tables only those two names switch; a switch sets current, stored and document language |
| I18n.BilingualT | server/resources/__system/js/i18n.js:112-114 | with the `ja`/`en` tables a key of the tables gets its non-empty text in either language, and any other key comes back unchanged |
| SystemI18n.IsBilingual | server/resources/__system/js/i18n.js:14-67 | the system pages' tables are exactly `ja` and `en`, with the same keys and no empty text |
| HtmlI18n.IsBilingual | server/html/i18n.js:14-55 | the editor's tables are exactly `ja` and `en`, with the same keys and no empty text |
| ConfigForm.Trim | server/html/config.js:32 | `trim` keeps an infix; everything removed is white space, and the result neither starts nor ends with white space |
| ConfigForm.TrimEmptyIffBlank | server/html/config.js:32 | trimming leaves nothing iff the string is all white space |
| ConfigForm.TrimOfTrimmed | server/html/config.js:32 | a string with non-space ends is its own trim |
| ConfigForm.HalfWidthChar | server/html/config.js:24 | `０`..`９` map to `0`..`9` (code point minus 0xFEE0); every other character is kept |
| ConfigForm.ToHalfWidth | server/html/config.js:24 | same length; each full-width digit becomes its ASCII digit, and every other character is kept; no full-width digit remains |
| ConfigForm.ToHalfWidthIdempotent | server/html/config.js:24 | converting twice is converting once |
| ConfigForm.Clean | server/html/config.js:32-33 | a cleaned value has non-space ends and no full-width digits |
| ConfigForm.HalfWidthKeepsEnds | server/html/config.js:32 | digit conversion does not change whether the first and last characters are white space |
| ConfigForm.CleanEmptyIffBlank | server/html/config.js:32-33 | a field cleans to nothing iff it held only white space |
| ConfigForm.CleanIdempotent | server/html/config.js:30-33 | validating a field again does not change its stored value |
| ConfigForm.FieldError | server/html/config.js:34-43 | the error is non-empty iff the field fails its check: `t('portError')` for a bad port, `t('requiredError')` for an empty field |
| ConfigForm.RequiredErrorIffBlank | server/html/config.js:39-42 | a non-port field is in error iff what was typed is all white space |
| ConfigForm.PortAcceptable | server/html/config.js:36 | a value starting with a sign, a space or any other non-digit is refused |
| ConfigForm.AcceptedPortReadsBack | server/html/config.js:36 | an accepted port is one the server's `int()` reads as a number within 1..65535 |
| ConfigForm.FieldsPresent | server/html/config.js:15 | a page with all six controls has a control for every entry of `fields` |
| ConfigForm.HasError | server/html/config.js:51 | `fields.some(f => errors[f])`: one of the six named fields has a non-empty error |
| ConfigForm.UpdateSubmit | server/html/config.js:50-53 | the button is disabled iff some of the six fields has a non-empty error; values and errors are kept |
| ConfigForm.ValidateField | server/html/config.js:30-47 | the field's value becomes its cleaned value, its error is recorded, and the button follows the errors |
| ConfigForm.FieldsDistinct | server/html/config.js:15 | the six field names are distinct |
| ConfigForm.ValidateStep | server/html/config.js:67 | validating the next field keeps the validated prefix and leaves the remaining fields and other controls alone |
| ConfigForm.ValidateAll | server/html/config.js:72 | after validating all fields, each holds its cleaned value and error, other controls are kept, and the button is disabled iff some cleaned value fails |
| ConfigForm.HasErrorIffInvalid | server/html/config.js:73 | once all fields are validated, some error shows iff some cleaned value fails its check |
| ConfigForm.AcceptableIffEveryFieldValid | server/html/config.js:72-74 | the field-by-field acceptance agrees with every entry of `fields` passing its check |
| ConfigForm.Payload | server/html/config.js:76-80 | the payload has exactly the six field keys with their values as strings, plus `restart: true` |
| ConfigForm.Submit | server/html/config.js:70-80 | submitting validates every field; a payload is produced iff every cleaned value passes, and it holds the cleaned values |
| ConfigForm.ToFormString | server/html/config.js:64 | strings are kept, `null` becomes empty, and a non-negative number becomes digits of its value |
| ConfigForm.CopyConfig | server/html/config.js:61-66 | only configuration keys with a control of that name are copied; other controls keep their values |
| ConfigForm.CopiedStringsPostBack | server/html/config.js:61-66 | six string fields loaded into the form and submitted unedited are posted back unchanged |
| ConfigForm.LoadInitial | server/html/config.js:61-68 | loading copies the configuration into the form and then validates every field |
| ConfigForm.ConfiguredPortIsAccepted | server/html/config.js:35-38 | a port of 1..65535 loaded from the server passes the port check and keeps its value |
| RoundTrip.AcceptedSubmissionMerges | server/simple_https_server.py:50-51 | posting an accepted form merges its six values, asks for a restart and keeps `restart` out of the configuration |
| RoundTrip.SubmittedValuesBind | server/simple_https_server.py:77-81 | a configuration with the submitted values yields settings with the submitted host, port, path, certificate and key, and the port is in 1..65535 |
| RoundTrip.SubmissionReceived | server/simple_https_server.py:45-62 | receiving an accepted submission while serving, on a handler that can be built, merges it, sets the restart flag, keeps the file in step and makes the submitted path every later handler's directory |
| RoundTrip.RestartRebinds | server/simple_https_server.py:93-97 | with a restart pending, shutdown then rebind serves with the submitted settings, and handlers serve the submitted path |
| RoundTrip.SubmissionRestartsWithSubmittedSettings | server/simple_https_server.py:74-97 | an accepted submission, then shutdown, then rebind leaves the server serving the submitted settings and path with no restart pending |
| RoundTrip.FormErrorsAreTranslated | server/html/config.js:35-42 | in either language, a bad port shows the `portError` text and an empty field the `requiredError` text, never the bare key |
| RoundTrip.ServedPortSurvivesTheForm | server/html/config.js:61-67 | a served port loads into the form without an error, and submitting it gives the server the same port back |

## Left out

- TLS contexts, certificate loading, socket binding, `serve_forever` and `server_close` are library I/O. Serving is an abstract phase, and a bind failure (bad certificate, busy port) is not modelled.
- The shutdown thread is concurrency. Only the restart flag it acts on is modelled; the shutdown it triggers is the `ServeReturned` event.
- YAML is modelled as a file store mapping each path to the last configuration saved there. Loading a file whose YAML is empty or not a mapping is not modelled.
- Write errors on save are not modelled, and neither are edits made to the file by someone else.
- A non-numeric `Content-Length` is not modelled. A body is either absent, decodes to a JSON value, or fails to decode.
- JSON numbers are integers. Floating-point values in the configuration or the body are not modelled.
- Static-file serving by `SimpleHTTPRequestHandler` (GET/HEAD other than `GET /config`) is library code. It is modelled only as a delegated reply that carries the handler's directory.
- `print`, `argparse` and `main` are console and CLI plumbing.
- The 200/`OK` bytes are not modelled as written bytes; they are `Reply.PostOk`.
- Decimal.ParseIntLiteral: narrower than Python's `int()`. Surrounding white space, `_` separators and non-ASCII digits are not accepted.
- Decimal.PyInt: narrower than Python's `int()` on strings for the same reason. A float value cannot occur in the model.
- Lifecycle.ResourcePathAppliesToNextRequest: covers a server whose current handler can be built. Otherwise the `POST` is lost and nothing changes, which `Lifecycle.WedgedStep` states for a saved unusable path.
- RoundTrip.SubmissionReceived: covers a server whose current handler can be built, for the same reason; `RoundTrip.SubmissionRestartsWithSubmittedSettings` inherits this.
- Lifecycle.Step: `Exited` is reached by `ServeReturned` without a pending restart. The program only leaves `serve_forever` through the shutdown that a restart request starts after setting the flag, so this move stands for a stop from outside (an interrupt), which is not otherwise modelled.
- ConfigForm.ToFormString: states only the non-negative integer, string and `null` cases. JavaScript's exponent notation for magnitudes of 1e21 and above, and precision beyond 2^53, are not modelled.
- ConfigForm.PortAcceptable: reads the digit string exactly. JavaScript's `Number` rounds above 2^53, which makes no difference for the 1..65535 range check.
- I18n.IsKnown: counts only a table's own keys as languages. Names JavaScript objects inherit (such as `constructor`) are not treated as tables.
- I18n.Lookup: same restriction for keys; inherited property names are not translations.
- The DOM is a sequence of abstract element records. `textContent` replaces an element's text; child nodes are not modelled.
- Showing a field's error text in `error-<name>`, and the `status` text after a submission, are DOM output and are not modelled.
- `form.elements` is a map from control name to value. Properties of the collection that are not controls are not modelled.
- Event wiring, `fetch`, `localStorage` and `URLSearchParams` are browser I/O. Their values are parameters, and their effects are record fields.
- `server/resources/__system/js/readme.js` is not part of this model. It is a fetch/DOM wrapper whose one decision is which README file to fetch for the current language.
- `server/resources/__system/js/script.js` is not part of this model, since it only logs.

=== FILE: config_form.dfy ===
/**
 * The configuration editor page: each of six fields is cleaned (trimmed, full-width
 * digits made ASCII) and checked, the submit button is disabled while any field has an
 * error, and a submission posts the six cleaned values with `restart = true`.
 *
 * The form is a record of its control values (by name), the `errors` object and the
 * button's `disabled` flag. Error texts come from `t()` of the editor's i18n helper.
 */
module ConfigForm {
  import opened Wrappers
  import opened Json
  import opened ConfigKeys
  import opened Decimal
  import I18n

  /** The six validated fields, in the page's order. */
  const Fields: seq<string> := [HostKey, PortKey, DomainKey, CertfileKey, KeyfileKey, ResourcePathKey]
  const PortErrorKey := "portError"
  const RequiredErrorKey := "requiredError"
  const MinPort := 1
  const MaxPort := 65535

  /** The characters `String.prototype.trim` removes: ECMAScript WhiteSpace (tab, vertical
      tab, form feed, no-break space, byte-order mark and the Unicode space separators) and
      LineTerminator. */
  predicate IsJsSpace(c: char) {
    || c == '\t' || c == '\n' || c == '\U{000B}' || c == '\U{000C}' || c == '\r'
    || c == ' ' || c == '\U{00A0}' || c == '\U{1680}'
    || ('\U{2000}' <= c <= '\U{200A}')
    || c == '\U{2028}' || c == '\U{2029}' || c == '\U{202F}' || c == '\U{205F}'
    || c == '\U{3000}' || c == '\U{FEFF}'
  }

  /** Every character is white space. */
  predicate AllSpace(s: string) {
    forall i :: 0 <= i < |s| ==> IsJsSpace(s[i])
  }

  /** The first position at or after `i` that does not hold white space (or `|s|`). */
  function SkipSpace(s: string, i: nat): (j: nat)
    requires i <= |s|
    ensures i <= j <= |s|
    ensures forall k :: i <= k < j ==> IsJsSpace(s[k])
    ensures j < |s| ==> !IsJsSpace(s[j])
    decreases |s| - i
  {
    if i < |s| && IsJsSpace(s[i]) then SkipSpace(s, i + 1) else i
  }

  /** The end of `s[lo..j]` once its trailing white space is dropped. */
  function SkipSpaceBack(s: string, lo: nat, j: nat): (k: nat)
    requires lo <= j <= |s|
    ensures lo <= k <= j
    ensures forall m :: k <= m < j ==> IsJsSpace(s[m])
    ensures k > lo ==> !IsJsSpace(s[k - 1])
    decreases j
  {
    if j > lo && IsJsSpace(s[j - 1]) then SkipSpaceBack(s, lo, j - 1) else j
  }

  /** `String.prototype.trim`: the infix left once white space is dropped from both ends;
      everything dropped is white space and what is kept neither starts nor ends with it. */
  function Trim(s: string): (r: string)
    ensures var a := SkipSpace(s, 0);
            var b := SkipSpaceBack(s, a, |s|);
            && r == s[a..b]
            && (forall k :: 0 <= k < a ==> IsJsSpace(s[k]))
            && (forall k :: b <= k < |s| ==> IsJsSpace(s[k]))
    ensures r == [] || (!IsJsSpace(r[0]) && !IsJsSpace(r[|r| - 1]))
  {
    var a := SkipSpace(s, 0);
    var b := SkipSpaceBack(s, a, |s|);
    assert b > a ==> s[a..b][0] == s[a] && s[a..b][b - a - 1] == s[b - 1];
    s[a..b]
  }

  /** Trimming leaves nothing exactly when the string is all white space. */
  lemma TrimEmptyIffBlank(s: string)
    ensures Trim(s) == [] <==> AllSpace(s)
  {
    var a := SkipSpace(s, 0);
    var b := SkipSpaceBack(s, a, |s|);
    if Trim(s) == [] {
      assert a == b;
    }
  }

  /** A string that neither starts nor ends with white space is its own trim. */
  lemma TrimOfTrimmed(s: string)
    requires s == [] || (!IsJsSpace(s[0]) && !IsJsSpace(s[|s| - 1]))
    ensures Trim(s) == s
  {
    var a := SkipSpace(s, 0);
    assert a == 0;
  }

  /** `０` to `９`. */
  predicate IsFullWidthDigit(c: char) {
    '\U{FF10}' <= c <= '\U{FF19}'
  }

  /** One character of `toHalfWidth`: a full-width digit moves down by 0xFEE0. */
  function HalfWidthChar(c: char): (r: char)
    ensures IsFullWidthDigit(c) ==> r as int == c as int - 0xFEE0 && IsDigit(r)
    ensures !IsFullWidthDigit(c) ==> r == c
    ensures IsJsSpace(r) == IsJsSpace(c)
  {
    if IsFullWidthDigit(c) then (c as int - 0xFEE0) as char else c
  }

  /** `toHalfWidth`: full-width digits become ASCII digits; nothing else changes. */
  function ToHalfWidth(s: string): (r: string)
    ensures |r| == |s|
    ensures forall i :: 0 <= i < |s| && IsFullWidthDigit(s[i]) ==>
              IsDigit(r[i]) && r[i] as int == s[i] as int - 0xFEE0
    ensures forall i :: 0 <= i < |s| && !IsFullWidthDigit(s[i]) ==> r[i] == s[i]
    ensures forall i :: 0 <= i < |r| ==> !IsFullWidthDigit(r[i])
  {
    if s == [] then [] else [HalfWidthChar(s[0])] + ToHalfWidth(s[1..])
  }

  /** Converting twice is converting once. */
  lemma ToHalfWidthIdempotent(s: string)
    ensures ToHalfWidth(ToHalfWidth(s)) == ToHalfWidth(s)
  {
  }

  /** The value a field holds after validation: trimmed, then full-width digits converted. */
  function Clean(raw: string): (v: string)
    ensures v == [] || (!IsJsSpace(v[0]) && !IsJsSpace(v[|v| - 1]))
    ensures forall i :: 0 <= i < |v| ==> !IsFullWidthDigit(v[i])
  {
    HalfWidthKeepsEnds(Trim(raw));
    ToHalfWidth(Trim(raw))
  }

  lemma HalfWidthKeepsEnds(t: string)
    ensures var v := ToHalfWidth(t);
            v != [] ==> IsJsSpace(v[0]) == IsJsSpace(t[0]) && IsJsSpace(v[|v| - 1]) == IsJsSpace(t[|t| - 1])
  {
    var v := ToHalfWidth(t);
    if v != [] {
      assert v[0] == HalfWidthChar(t[0]);
      assert v[|v| - 1] == HalfWidthChar(t[|t| - 1]);
    }
  }

  /** A field is cleaned to nothing exactly when it held only white space. */
  lemma CleanEmptyIffBlank(raw: string)
    ensures Clean(raw) == [] <==> AllSpace(raw)
  {
    TrimEmptyIffBlank(raw);
  }

  /** Cleaning a cleaned value changes nothing, so validating a field twice is validating
      it once. */
  lemma {:induction false} CleanIdempotent(raw: string)
    ensures Clean(Clean(raw)) == Clean(raw)
  {
    var v := Clean(raw);
    TrimOfTrimmed(v);
    assert ToHalfWidth(v) == v;
  }

  /** The port check: one or more ASCII digits whose value lies in 1..65535. */
  predicate PortAcceptable(v: string)
    ensures v != [] && !IsDigit(v[0]) ==> !PortAcceptable(v)
  {
    |v| > 0 && AllDigits(v) && MinPort <= ValueOf(v) <= MaxPort
  }

  /** The page and the server agree on an accepted port: the server's `int()` reads it as
      the number the page checked, within 1..65535. */
  lemma AcceptedPortReadsBack(v: string)
    requires PortAcceptable(v)
    ensures ParseIntLiteral(v).Success?
    ensures MinPort <= ParseIntLiteral(v).value <= MaxPort
  {
  }

  /** Whether a field's cleaned value passes its check: the port as above, every other
      field non-empty. */
  predicate FieldValid(name: string, v: string) {
    if name == PortKey then PortAcceptable(v) else v != ""
  }

  /** The error message a field shows: `t('portError')`, `t('requiredError')` or `''`. */
  function FieldError(tables: I18n.Tables, lang: string, name: string, v: string): (err: string)
    requires lang in tables
    ensures err != "" <==> !FieldValid(name, v)
    ensures name == PortKey && !PortAcceptable(v) ==> err == I18n.T(tables, lang, PortErrorKey)
    ensures name != PortKey && v == "" ==> err == I18n.T(tables, lang, RequiredErrorKey)
  {
    if name == PortKey then
      (if PortAcceptable(v) then "" else I18n.T(tables, lang, PortErrorKey))
    else
      (if v == "" then I18n.T(tables, lang, RequiredErrorKey) else "")
  }

  /** A required field is in error exactly when what was typed is all white space. */
  lemma RequiredErrorIffBlank(tables: I18n.Tables, lang: string, name: string, raw: string)
    requires lang in tables
    requires name != PortKey
    ensures FieldError(tables, lang, name, Clean(raw)) != "" <==>
              AllSpace(raw)
  {
    CleanEmptyIffBlank(raw);
  }

  /** The editor's state: control values by name, the `errors` object, and whether the
      submit button is disabled. */
  datatype Form = Form(values: map<string, string>, errors: map<string, string>, submitDisabled: bool)

  /** `fields.some(f => errors[f])`: some field has a non-empty error. */
  predicate HasError(errors: map<string, string>)
    ensures HasError(errors) <==>
              || (HostKey in errors && errors[HostKey] != "")
              || (PortKey in errors && errors[PortKey] != "")
              || (DomainKey in errors && errors[DomainKey] != "")
              || (CertfileKey in errors && errors[CertfileKey] != "")
              || (KeyfileKey in errors && errors[KeyfileKey] != "")
              || (ResourcePathKey in errors && errors[ResourcePathKey] != "")
  {
    ErrorsByName(errors);
    exists i :: 0 <= i < |Fields| && Fields[i] in errors && errors[Fields[i]] != ""
  }

  lemma ErrorsByName(errors: map<string, string>)
    ensures (exists i :: 0 <= i < |Fields| && Fields[i] in errors && errors[Fields[i]] != "") <==>
              || (HostKey in errors && errors[HostKey] != "")
              || (PortKey in errors && errors[PortKey] != "")
              || (DomainKey in errors && errors[DomainKey] != "")
              || (CertfileKey in errors && errors[CertfileKey] != "")
              || (KeyfileKey in errors && errors[KeyfileKey] != "")
              || (ResourcePathKey in errors && errors[ResourcePathKey] != "")
  {
    assert Fields[0] == HostKey && Fields[1] == PortKey && Fields[2] == DomainKey;
    assert Fields[3] == CertfileKey && Fields[4] == KeyfileKey && Fields[5] == ResourcePathKey;
  }

  /** Every one of the six fields has a control on the page. */
  predicate HasAllFields(values: map<string, string>) {
    && HostKey in values && PortKey in values && DomainKey in values
    && CertfileKey in values && KeyfileKey in values && ResourcePathKey in values
  }

  lemma FieldsPresent(values: map<string, string>)
    requires HasAllFields(values)
    ensures forall i :: 0 <= i < |Fields| ==> Fields[i] in values
  {
  }

  /** `updateSubmit()`: the button is disabled exactly while some field shows an error;
      nothing else changes. */
  function UpdateSubmit(f: Form): (g: Form)
    ensures g.values == f.values && g.errors == f.errors
    ensures g.submitDisabled <==>
              exists i :: 0 <= i < |Fields| && Fields[i] in f.errors && f.errors[Fields[i]] != ""
  {
    f.(submitDisabled := HasError(f.errors))
  }

  /** `validateField(name)`: store the cleaned value, record the error, update the button. */
  function ValidateField(tables: I18n.Tables, lang: string, f: Form, name: string): (g: Form)
    requires lang in tables
    requires name in f.values
    ensures g.values == f.values[name := Clean(f.values[name])]
    ensures g.errors == f.errors[name := FieldError(tables, lang, name, Clean(f.values[name]))]
    ensures g.submitDisabled <==> HasError(g.errors)
  {
    var v := Clean(f.values[name]);
    UpdateSubmit(Form(f.values[name := v], f.errors[name := FieldError(tables, lang, name, v)], f.submitDisabled))
  }

  lemma FieldsDistinct()
    ensures forall i, j :: 0 <= i < j < |Fields| ==> Fields[i] != Fields[j]
  {
  }

  /** `g` is `f` after validating all six fields in turn. */
  ghost predicate Validated(tables: I18n.Tables, lang: string, f: Form, g: Form)
    requires lang in tables
  {
    && g.values.Keys == f.values.Keys
    && (forall k :: k in f.values && k !in Fields ==> g.values[k] == f.values[k])
    && (forall i :: 0 <= i < |Fields| ==> FieldDone(tables, lang, f, g, Fields[i]))
    && (g.submitDisabled <==> exists i :: 0 <= i < |Fields| && !FieldValid(Fields[i], g.values[Fields[i]]))
  }

  /** Field `name` of `g` holds the cleaned value of `f`'s, with its error recorded. */
  ghost predicate FieldDone(tables: I18n.Tables, lang: string, f: Form, g: Form, name: string)
    requires lang in tables
  {
    && name in f.values
    && name in g.values
    && g.values[name] == Clean(f.values[name])
    && name in g.errors
    && g.errors[name] == FieldError(tables, lang, name, g.values[name])
  }

  /** What holds after validating the first `i` fields of `f`, giving `g`. */
  ghost predicate ValidatedUpTo(tables: I18n.Tables, lang: string, f: Form, g: Form, i: nat)
    requires lang in tables
  {
    && i <= |Fields|
    && (forall j :: 0 <= j < |Fields| ==> Fields[j] in f.values)
    && g.values.Keys == f.values.Keys
    && (forall k :: k in f.values && k !in Fields ==> g.values[k] == f.values[k])
    && (forall j :: 0 <= j < i ==> FieldDone(tables, lang, f, g, Fields[j]))
    && (forall j :: i <= j < |Fields| ==> g.values[Fields[j]] == f.values[Fields[j]])
  }

  /** Validating field `i` extends the validated prefix by one. */
  lemma ValidateStep(tables: I18n.Tables, lang: string, f: Form, g: Form, i: nat)
    requires lang in tables
    requires i < |Fields|
    requires ValidatedUpTo(tables, lang, f, g, i)
    ensures Fields[i] in g.values
    ensures ValidatedUpTo(tables, lang, f, ValidateField(tables, lang, g, Fields[i]), i + 1)
  {
    FieldsDistinct();
    var name := Fields[i];
    var next := ValidateField(tables, lang, g, name);
    forall j | 0 <= j < i
      ensures FieldDone(tables, lang, f, next, Fields[j])
    {
      assert Fields[j] != name;
      assert FieldDone(tables, lang, f, g, Fields[j]);
    }
    assert FieldDone(tables, lang, f, next, name);
    forall j | i < j < |Fields|
      ensures next.values[Fields[j]] == f.values[Fields[j]]
    {
      assert Fields[j] != name;
    }
    forall k | k in f.values && k !in Fields
      ensures next.values[k] == f.values[k]
    {
      assert k != name;
    }
  }

  /** `fields.forEach(f => validateField(f))`. */
  method ValidateAll(tables: I18n.Tables, lang: string, f: Form) returns (g: Form)
    requires lang in tables
    requires HasAllFields(f.values)
    ensures Validated(tables, lang, f, g)
  {
    FieldsPresent(f.values);
    g := f;
    var i := 0;
    while i < |Fields|
      invariant ValidatedUpTo(tables, lang, f, g, i)
      invariant i > 0 ==> (g.submitDisabled <==> HasError(g.errors))
    {
      ValidateStep(tables, lang, f, g, i);
      g := ValidateField(tables, lang, g, Fields[i]);
      i := i + 1;
    }
    HasErrorIffInvalid(tables, lang, f, g);
  }

  /** Once every field is validated, some error is showing iff some cleaned value fails
      its check. */
  lemma HasErrorIffInvalid(tables: I18n.Tables, lang: string, f: Form, g: Form)
    requires lang in tables
    requires forall j :: 0 <= j < |Fields| ==> FieldDone(tables, lang, f, g, Fields[j])
    ensures HasError(g.errors) <==> exists i :: 0 <= i < |Fields| && Fields[i] in g.values && !FieldValid(Fields[i], g.values[Fields[i]])
  {
    if HasError(g.errors) {
      var i :| 0 <= i < |Fields| && Fields[i] in g.errors && g.errors[Fields[i]] != "";
      assert FieldDone(tables, lang, f, g, Fields[i]);
    }
    if exists i :: 0 <= i < |Fields| && Fields[i] in g.values && !FieldValid(Fields[i], g.values[Fields[i]]) {
      var i :| 0 <= i < |Fields| && Fields[i] in g.values && !FieldValid(Fields[i], g.values[Fields[i]]);
      assert FieldDone(tables, lang, f, g, Fields[i]);
    }
  }

  /** A form the submit handler lets through, field by field. */
  predicate Acceptable(values: map<string, string>) {
    && HasAllFields(values)
    && values[HostKey] != ""
    && PortAcceptable(values[PortKey])
    && values[DomainKey] != ""
    && values[CertfileKey] != ""
    && values[KeyfileKey] != ""
    && values[ResourcePathKey] != ""
  }

  /** The field-by-field reading agrees with checking every entry of `fields`. */
  lemma AcceptableIffEveryFieldValid(values: map<string, string>)
    requires HasAllFields(values)
    ensures Acceptable(values) <==> forall i :: 0 <= i < |Fields| ==> FieldValid(Fields[i], values[Fields[i]])
  {
    if Acceptable(values) {
      forall i | 0 <= i < |Fields|
        ensures FieldValid(Fields[i], values[Fields[i]])
      {
        assert i in {0, 1, 2, 3, 4, 5};
      }
    } else {
      if values[HostKey] == "" { assert !FieldValid(Fields[0], values[Fields[0]]); }
      else if !PortAcceptable(values[PortKey]) { assert !FieldValid(Fields[1], values[Fields[1]]); }
      else if values[DomainKey] == "" { assert !FieldValid(Fields[2], values[Fields[2]]); }
      else if values[CertfileKey] == "" { assert !FieldValid(Fields[3], values[Fields[3]]); }
      else if values[KeyfileKey] == "" { assert !FieldValid(Fields[4], values[Fields[4]]); }
      else { assert !FieldValid(Fields[5], values[Fields[5]]); }
    }
  }

  /** The body of a submission: the six values as strings, and `restart: true`. */
  function Payload(values: map<string, string>): (p: map<string, Value>)
    requires HasAllFields(values)
    ensures p.Keys == {HostKey, PortKey, DomainKey, CertfileKey, KeyfileKey, ResourcePathKey, RestartKey}
    ensures forall i :: 0 <= i < |Fields| ==> p[Fields[i]] == Str(values[Fields[i]])
    ensures p[RestartKey] == Bool(true)
  {
    map[HostKey := Str(values[HostKey]), PortKey := Str(values[PortKey]),
        DomainKey := Str(values[DomainKey]), CertfileKey := Str(values[CertfileKey]),
        KeyfileKey := Str(values[KeyfileKey]), ResourcePathKey := Str(values[ResourcePathKey]),
        RestartKey := Bool(true)]
  }

  /** The submit handler: validate every field, stop if any has an error, otherwise
      build the payload that is posted to `/config`. */
  method Submit(tables: I18n.Tables, lang: string, f: Form) returns (g: Form, payload: Option<map<string, Value>>)
    requires lang in tables
    requires HasAllFields(f.values)
    ensures Validated(tables, lang, f, g)
    ensures payload.Some? <==> Acceptable(g.values)
    ensures payload.Some? ==> payload.value == Payload(g.values)
  {
    g := ValidateAll(tables, lang, f);
    AcceptableIffEveryFieldValid(g.values);
    if g.submitDisabled {
      payload := None;
    } else {
      payload := Some(Payload(g.values));
    }
  }

  /** A list of strings joined with commas, as `Array.prototype.join` does. */
  function JoinWithCommas(parts: seq<string>): string {
    if |parts| == 0 then ""
    else if |parts| == 1 then parts[0]
    else parts[0] + "," + JoinWithCommas(parts[1..])
  }

  /** The string a control holds after `el.value = v` with a decoded value: `null` becomes
      empty, numbers and booleans their decimal or literal text, arrays their joined
      elements, and objects `[object Object]`. */
  function ToFormString(v: Value): (s: string)
    ensures v.Str? ==> s == v.s
    ensures v.Null? ==> s == ""
    ensures v.Num? && v.n >= 0 ==> AllDigits(s) && ValueOf(s) == v.n
    decreases v
  {
    match v
    case Null => ""
    case Bool(b) => if b then "true" else "false"
    case Num(n) =>
      if n < 0 then "-" + Render(-n)
      else ValueOfRender(n); Render(n)
    case Str(s) => s
    case Arr(items) => JoinWithCommas(seq(|items|, i requires 0 <= i < |items| => ToFormString(items[i])))
    case Obj(_) => "[object Object]"
  }

  /** The initial copy of `/config` into the form: a key with a control of that name sets
      the control's value; keys without a control are ignored. */
  function CopyConfig(values: map<string, string>, cfg: map<string, Value>): (r: map<string, string>)
    ensures r.Keys == values.Keys
    ensures forall k :: k in values && k in cfg ==> r[k] == ToFormString(cfg[k])
    ensures forall k :: k in values && k !in cfg ==> r[k] == values[k]
  {
    map k | k in values :: if k in cfg then ToFormString(cfg[k]) else values[k]
  }

  /** A configuration whose six fields are strings, loaded into the form and submitted
      unedited, posts those six values back as they were. */
  lemma CopiedStringsPostBack(values: map<string, string>, cfg: map<string, Value>)
    requires HasAllFields(values)
    requires forall i :: 0 <= i < |Fields| ==> Fields[i] in cfg && cfg[Fields[i]].Str?
    ensures HasAllFields(CopyConfig(values, cfg))
    ensures forall i :: 0 <= i < |Fields| ==> Payload(CopyConfig(values, cfg))[Fields[i]] == cfg[Fields[i]]
  {
    FieldsPresent(values);
  }

  /** Page load: copy the fetched configuration into the form, then validate every field. */
  method LoadInitial(tables: I18n.Tables, lang: string, f: Form, cfg: map<string, Value>) returns (g: Form)
    requires lang in tables
    requires HasAllFields(f.values)
    ensures Validated(tables, lang, f.(values := CopyConfig(f.values, cfg)), g)
    ensures g.values.Keys == f.values.Keys
  {
    g := ValidateAll(tables, lang, f.(values := CopyConfig(f.values, cfg)));
  }

  /** A port number in range, as the server reports it, loads into the form without an
      error and keeps its value. */
  lemma ConfiguredPortIsAccepted(n: int)
    requires MinPort <= n <= MaxPort
    ensures var v := Clean(ToFormString(Num(n)));
            PortAcceptable(v) && ValueOf(v) == n
  {
    var s := ToFormString(Num(n));
    assert forall i :: 0 <= i < |s| ==> !IsJsSpace(s[i]) && !IsFullWidthDigit(s[i]);
    TrimOfTrimmed(s);
    assert ToHalfWidth(s) == s;
  }
}

=== FILE: config_keys.dfy ===
/** The configuration keys the server reads and the editor page writes. */
module ConfigKeys {
  const HostKey := "host"
  const PortKey := "port"
  const DomainKey := "domain"
  const CertfileKey := "certfile"
  const KeyfileKey := "keyfile"
  const ResourcePathKey := "resource_path"

  /** The transient directive asking the server to restart; never stored. */
  const RestartKey := "restart"
}

=== FILE: config_server.dfy ===
/**
 * The request handler of the HTTPS server: `GET /config` returns the configuration,
 * `POST /config` merges a JSON object into it, persists it and may ask for a restart,
 * and everything else is handed to the library's static-file handler.
 *
 * The global `CONFIG` dictionary is passed in and returned explicitly, the YAML file
 * store is a map from path to the last configuration saved there, and the handler's
 * serving directory is a value (the library's static-file lookup is not modelled).
 */
module ConfigServer {
  import opened Wrappers
  import opened Json
  import opened ConfigKeys

  /** The configuration dictionary: string keys to decoded values. */
  type Config = map<string, Value>

  /** The configuration files on disk: each path holds the mapping last written there. */
  type Disk = map<string, Config>

  const ConfigRoute := "/config"

  /** Python's `dict.get(key, default)`. */
  function Get(c: Config, key: string, default: Value): (v: Value)
    ensures key in c ==> v == c[key]
    ensures key !in c ==> v == default
  {
    if key in c then c[key] else default
  }

  /** Python's truth value of a decoded value (`if restart:`). */
  predicate Truthy(v: Value)
    ensures !Truthy(v) <==> v in {Null, Bool(false), Num(0), Str(""), Arr([]), Obj(map[])}
  {
    match v
    case Null => false
    case Bool(b) => b
    case Num(n) => n != 0
    case Str(s) => s != ""
    case Arr(items) => items != []
    case Obj(fields) => fields != map[]
  }

  /** Reading a configuration file: a missing file (or the empty path) raises. */
  function LoadConfig(disk: Disk, path: string): (r: Result<Config, string>)
    ensures r.Success? <==> path != "" && path in disk
    ensures r.Success? ==> r.value == disk[path]
  {
    if path != "" && path in disk then Success(disk[path]) else Failure(path)
  }

  /** Writing a configuration file replaces that file's contents and touches no other file. */
  function SaveConfig(disk: Disk, path: string, c: Config): (d: Disk)
    ensures path in d && d[path] == c
    ensures forall p :: p in disk && p != path ==> p in d && d[p] == disk[p]
    ensures d.Keys == disk.Keys + {path}
  {
    disk[path := c]
  }

  /** The request body as the handler sees it. */
  datatype Body =
    | NoBody                 // Content-Length absent or 0: read as `{}`
    | Parsed(json: Value)    // a body that decodes as JSON
    | Undecodable            // a body that is not UTF-8 JSON: `json.loads` raises

  /** Building a handler: the class takes the explicit directory or, when that is `None`, the
      configured `resource_path` (else the working directory); the library's constructor then
      replaces a `None` by the working directory and passes the value through `os.fspath`,
      which raises on anything that is not a string. */
  function HandlerDirectory(c: Config, directory: Value, cwd: string): (r: Result<string, HandlerError>)
    ensures directory.Str? ==> r == Success(directory.s)
    ensures directory == Null && ResourcePathKey in c && c[ResourcePathKey].Str? ==>
              r == Success(c[ResourcePathKey].s)
    ensures directory == Null && (ResourcePathKey !in c || c[ResourcePathKey] == Null) ==> r == Success(cwd)
    ensures r.Failure? <==>
              || (directory != Null && !directory.Str?)
              || (directory == Null && ResourcePathKey in c && c[ResourcePathKey] != Null && !c[ResourcePathKey].Str?)
    ensures r.Failure? ==> r.error == UnusableDirectory
  {
    var chosen := if directory == Null then Get(c, ResourcePathKey, Str(cwd)) else directory;
    match chosen
    case Null => Success(cwd)
    case Str(d) => Success(d)
    case _ => Failure(UnusableDirectory)
  }

  /** What happened to a `POST /config` whose body decoded. */
  datatype Update = Update(
    config: Config,      // the merged global configuration
    disk: Disk,          // the files after the save (if any)
    directory: Value,    // this handler's directory afterwards
    restart: bool)       // whether `restart_after_shutdown` was set

  /** Why the handler raised instead of answering. */
  datatype HandlerError =
    | UnusableDirectory  // the directory is not a string: `os.fspath` raised while building the handler
    | BadJson            // the body did not decode
    | NotAnObject        // the body decoded to something without `pop`
    | NoPostHandler      // the library handler has no `do_POST`

  /** The body as a dictionary: an empty body is `{}`; a non-object cannot be popped. */
  function BodyObject(body: Body): (r: Result<Config, HandlerError>)
    ensures body.NoBody? ==> r == Success(map[])
    ensures body.Undecodable? ==> r == Failure(BadJson)
    ensures body.Parsed? && body.json.Obj? ==> r == Success(body.json.fields)
    ensures body.Parsed? && !body.json.Obj? ==> r == Failure(NotAnObject)
  {
    match body
    case NoBody => Success(map[])
    case Undecodable => Failure(BadJson)
    case Parsed(v) => if v.Obj? then Success(v.fields) else Failure(NotAnObject)
  }

  /** `POST /config`: pop `restart` (default `False`), merge the rest key by key into the
      configuration, save it when a configuration path is set, re-point this handler's
      directory when `resource_path` was sent, and report whether a restart was asked for. */
  function PostConfig(c: Config, configPath: string, disk: Disk, directory: Value, body: Body)
    : (r: Result<Update, HandlerError>)
    ensures r.Success? <==> BodyObject(body).Success?
    ensures r.Success? ==>
              var data := BodyObject(body).value;
              // every key sent, except the directive, now holds the value sent
              && (forall k :: k in data && k != RestartKey ==> k in r.value.config && r.value.config[k] == data[k])
              // every key not sent is unchanged, and no key is dropped
              && (forall k :: k in c && k !in data ==> k in r.value.config && r.value.config[k] == c[k])
              && (forall k :: k in r.value.config ==> k in c || (k in data && k != RestartKey))
              // the restart directive is never merged
              && (RestartKey in r.value.config <==> RestartKey in c)
              && (RestartKey in c ==> r.value.config[RestartKey] == c[RestartKey])
              // restart only on a truthy directive; a missing one means no restart
              && (r.value.restart <==> RestartKey in data && Truthy(data[RestartKey]))
              // the file equals the in-memory configuration after the update
              && (configPath != "" ==> r.value.disk == SaveConfig(disk, configPath, r.value.config))
              && (configPath == "" ==> r.value.disk == disk)
              // the handler's directory moves iff resource_path was sent
              && (ResourcePathKey in data ==> r.value.directory == data[ResourcePathKey])
              && (ResourcePathKey !in data ==> r.value.directory == directory)
  {
    match BodyObject(body)
    case Failure(e) => Failure(e)
    case Success(raw) =>
      var restart := Get(raw, RestartKey, Bool(false));
      var data := raw - {RestartKey};
      var merged := c + data;
      var disk' := if configPath != "" then SaveConfig(disk, configPath, merged) else disk;
      var directory' := if ResourcePathKey in data then Get(merged, ResourcePathKey, directory) else directory;
      Success(Update(merged, disk', directory', Truthy(restart)))
  }

  /** An empty body is the empty object: the configuration keeps every entry and no restart
      is asked for. */
  lemma EmptyBodyChangesNothing(c: Config, configPath: string, disk: Disk, directory: Value)
    ensures var r := PostConfig(c, configPath, disk, directory, NoBody);
            && r.Success?
            && r.value.config == c
            && !r.value.restart
            && r.value.directory == directory
  {
  }

  /** Posting the same update twice leaves the configuration as posting it once. */
  lemma PostIsIdempotent(c: Config, configPath: string, disk: Disk, directory: Value, body: Body)
    requires PostConfig(c, configPath, disk, directory, body).Success?
    ensures var u := PostConfig(c, configPath, disk, directory, body).value;
            var u2 := PostConfig(u.config, configPath, u.disk, u.directory, body).value;
            && u2.config == u.config
            && u2.disk == u.disk
            && u2.directory == u.directory
            && u2.restart == u.restart
  {
    var u := PostConfig(c, configPath, disk, directory, body).value;
    var u2 := PostConfig(u.config, configPath, u.disk, u.directory, body).value;
    assert u2.config == u.config;
  }

  /** An HTTP request reaching the handler. */
  datatype Request = Request(verb: string, path: string, body: Body)

  /** What the handler sends back. */
  datatype Reply =
    | ConfigJson(config: Config)                             // 200, application/json, the whole configuration
    | PostOk                                                 // 200, body `OK`
    | Delegated(verb: string, path: string, directory: string)  // the library's static-file GET/HEAD
    | NotImplemented                                         // 501 from the library: no `do_<METHOD>`
    | Raised(error: HandlerError)                            // the handler raised; nothing is sent

  /** The HTTP status line of a reply, when one is sent by this handler. */
  function Status(reply: Reply): (s: Option<nat>)
    ensures s.Some? <==> reply.ConfigJson? || reply.PostOk? || reply.NotImplemented?
    ensures reply.ConfigJson? || reply.PostOk? ==> s == Some(200)
    ensures reply.NotImplemented? ==> s == Some(501)
  {
    match reply
    case ConfigJson(_) => Some(200)
    case PostOk => Some(200)
    case NotImplemented => Some(501)
    case _ => None
  }

  /** The handler's state around one request. */
  datatype Handled = Handled(reply: Reply, config: Config, disk: Disk, restart: bool)

  /** One request through `ConfigurableHTTPRequestHandler`: the handler is built with the
      factory's `directory` first (and the request is lost when that raises); then `do_GET` and
      `do_POST` are overridden, `do_HEAD` is the library's, and any other method has no handler. */
  function Handle(c: Config, configPath: string, disk: Disk, directory: Value, cwd: string, req: Request)
    : (h: Handled)
    ensures HandlerDirectory(c, directory, cwd).Failure? ==>
              h == Handled(Raised(UnusableDirectory), c, disk, false)
    ensures HandlerDirectory(c, directory, cwd).Success? && req.verb == "GET" && req.path == ConfigRoute ==>
              h == Handled(ConfigJson(c), c, disk, false)
    ensures HandlerDirectory(c, directory, cwd).Success? && req.verb == "POST" && req.path == ConfigRoute ==>
              match PostConfig(c, configPath, disk, Str(HandlerDirectory(c, directory, cwd).value), req.body)
              case Success(u) => h == Handled(PostOk, u.config, u.disk, u.restart)
              case Failure(e) => h == Handled(Raised(e), c, disk, false)
    ensures HandlerDirectory(c, directory, cwd).Success? &&
            (req.verb == "GET" || req.verb == "HEAD") && !(req.verb == "GET" && req.path == ConfigRoute) ==>
              h == Handled(Delegated(req.verb, req.path, HandlerDirectory(c, directory, cwd).value), c, disk, false)
    ensures HandlerDirectory(c, directory, cwd).Success? && req.verb == "POST" && req.path != ConfigRoute ==>
              h == Handled(Raised(NoPostHandler), c, disk, false)
    ensures HandlerDirectory(c, directory, cwd).Success? &&
            req.verb != "GET" && req.verb != "HEAD" && req.verb != "POST" ==>
              h == Handled(NotImplemented, c, disk, false)
    ensures h.config != c || h.disk != disk || h.restart ==>
              HandlerDirectory(c, directory, cwd).Success? && req.verb == "POST" && req.path == ConfigRoute
  {
    match HandlerDirectory(c, directory, cwd)
    case Failure(e) => Handled(Raised(e), c, disk, false)
    case Success(d) =>
      if req.verb == "GET" && req.path == ConfigRoute then
        Handled(ConfigJson(c), c, disk, false)
      else if req.verb == "GET" || req.verb == "HEAD" then
        Handled(Delegated(req.verb, req.path, d), c, disk, false)
      else if req.verb == "POST" then
        if req.path == ConfigRoute then
          match PostConfig(c, configPath, disk, Str(d), req.body)
          case Success(u) => Handled(PostOk, u.config, u.disk, u.restart)
          case Failure(e) => Handled(Raised(e), c, disk, false)
        else
          Handled(Raised(NoPostHandler), c, disk, false)
      else
        Handled(NotImplemented, c, disk, false)
  }

  /** A successful update followed by `GET /config` on a fresh handler returns exactly the
      merged configuration, and the file on disk holds that same configuration; the fresh
      handler is built from the merged configuration, so the GET is answered exactly when
      that configuration still yields a usable directory. */
  lemma ReadAfterWrite(c: Config, configPath: string, disk: Disk, directory: Value, cwd: string,
                       body: Body, next: Value)
    requires configPath != ""
    requires HandlerDirectory(c, directory, cwd).Success?
    requires BodyObject(body).Success?
    ensures var h := Handle(c, configPath, disk, directory, cwd, Request("POST", ConfigRoute, body));
            var g := Handle(h.config, configPath, h.disk, next, cwd, Request("GET", ConfigRoute, NoBody));
            && h.reply == PostOk
            && h.config == c + (BodyObject(body).value - {RestartKey})
            && configPath in h.disk && h.disk[configPath] == h.config
            && (HandlerDirectory(h.config, next, cwd).Success? ==> g.reply == ConfigJson(h.config))
            && (HandlerDirectory(h.config, next, cwd).Failure? ==> g.reply == Raised(UnusableDirectory))
            && g.config == h.config && g.disk == h.disk
  {
  }

  /** A posted `resource_path` that is neither a string nor `null` is merged and saved, and
      from then on no handler built from the configuration with the class's default can be
      built: every later request raises before it is handled. */
  lemma UnusableResourcePathBlocksHandlers(c: Config, configPath: string, disk: Disk, directory: Value,
                                           cwd: string, fields: map<string, Value>)
    requires HandlerDirectory(c, directory, cwd).Success?
    requires ResourcePathKey in fields && fields[ResourcePathKey] != Null && !fields[ResourcePathKey].Str?
    ensures var h := Handle(c, configPath, disk, directory, cwd, Request("POST", ConfigRoute, Parsed(Obj(fields))));
            && h.reply == PostOk
            && h.config[ResourcePathKey] == fields[ResourcePathKey]
            && HandlerDirectory(h.config, Null, cwd).Failure?
            && HandlerDirectory(h.config, h.config[ResourcePathKey], cwd).Failure?
  {
    assert ResourcePathKey != RestartKey;
  }
}

=== FILE: decimal.dfy ===
/** Strings of ASCII decimal digits, their numeric value, and Python's `int()` on a value. */
module Decimal {
  import opened Wrappers
  import opened Json

  predicate IsDigit(c: char) {
    '0' <= c <= '9'
  }

  predicate AllDigits(s: string) {
    forall i :: 0 <= i < |s| ==> IsDigit(s[i])
  }

  function DigitValue(c: char): (d: nat)
    requires IsDigit(c)
    ensures d < 10
  {
    c as int - '0' as int
  }

  function DigitChar(d: nat): (c: char)
    requires d < 10
    ensures IsDigit(c) && DigitValue(c) == d
  {
    ('0' as int + d) as char
  }

  /** The number a digit string denotes; leading zeros are allowed, as in `Number("0443")`. */
  function ValueOf(s: string): nat
    requires AllDigits(s)
    decreases |s|
  {
    if |s| == 0 then 0
    else
      ValueOf(s[..|s| - 1]) * 10 + DigitValue(s[|s| - 1])
  }

  /** The canonical decimal rendering of a natural number (no leading zeros). */
  function Render(n: nat): (r: string)
    ensures |r| > 0 && AllDigits(r)
    ensures n > 0 ==> r[0] != '0'
    decreases n
  {
    if n < 10 then [DigitChar(n)] else Render(n / 10) + [DigitChar(n % 10)]
  }

  /** Rendering then reading back gives the number again. */
  lemma {:induction false} ValueOfRender(n: nat)
    ensures ValueOf(Render(n)) == n
  {
    if n >= 10 {
      var r := Render(n);
      assert r[..|r| - 1] == Render(n / 10);
      ValueOfRender(n / 10);
    }
  }

  /** Why Python's `int()` refused a value. */
  datatype IntError = ValueError | TypeError

  /** A decimal integer literal: an optional sign followed by at least one ASCII digit. */
  function ParseIntLiteral(s: string): (r: Result<int, IntError>)
    ensures |s| > 0 && AllDigits(s) ==> r == Success(ValueOf(s))
    ensures |s| > 1 && s[0] == '-' && AllDigits(s[1..]) ==> r == Success(-(ValueOf(s[1..]) as int))
    ensures |s| > 1 && s[0] == '+' && AllDigits(s[1..]) ==> r == Success(ValueOf(s[1..]))
    ensures r.Success? <==>
              (|s| > 0 && AllDigits(s)) || (|s| > 1 && (s[0] == '-' || s[0] == '+') && AllDigits(s[1..]))
  {
    if |s| > 0 && AllDigits(s) then Success(ValueOf(s))
    else if |s| > 1 && (s[0] == '-' || s[0] == '+') && AllDigits(s[1..]) then
      Success(if s[0] == '-' then -(ValueOf(s[1..]) as int) else ValueOf(s[1..]))
    else Failure(ValueError)
  }

  /** Python's `int(v)` for a decoded value: booleans are 0/1, integers pass through,
      strings are parsed, anything else is a type error. */
  function PyInt(v: Value): (r: Result<int, IntError>)
    ensures v.Num? ==> r == Success(v.n)
    ensures v.Bool? ==> r == Success(if v.b then 1 else 0)
    ensures (v.Null? || v.Arr? || v.Obj?) ==> r == Failure(TypeError)
    ensures v.Str? ==> r == ParseIntLiteral(v.s)
  {
    match v
    case Bool(b) => Success(if b then 1 else 0)
    case Num(n) => Success(n)
    case Str(s) => ParseIntLiteral(s)
    case _ => Failure(TypeError)
  }

  /** `int()` reads the decimal text of a natural number back as that number. */
  lemma ParseRendered(n: nat)
    ensures ParseIntLiteral(Render(n)) == Success(n)
  {
    ValueOfRender(n);
  }

  /** `int()` reads a minus sign followed by the decimal text of `n` back as `-n`. */
  lemma ParseRenderedNegative(n: nat)
    ensures ParseIntLiteral("-" + Render(n)) == Success(-(n as int))
  {
    ValueOfRender(n);
    assert ("-" + Render(n))[1..] == Render(n);
  }
}

=== FILE: html_i18n.dfy ===
/**
 * The i18n helper as shipped with the configuration editor pages: its Japanese and English
 * string tables and the facts about them that the helper relies on.
 */
module HtmlI18n {
  import I18n

  type Table = I18n.Table

  const Ja: Table := map[
    "welcome" := "ようこそ Simple HTTPS Server へ!",
    "editConfig" := "設定編集",
    "configTitle" := "サーバー設定",
    "saveRestart" := "保存して再起動",
    "host" := "ホスト",
    "port" := "ポート",
    "domain" := "ドメイン",
    "certfile" := "証明書ファイル",
    "keyfile" := "鍵ファイル",
    "resourcePath" := "リソースパス",
    "requiredError" := "必須項目です",
    "portError" := "1～65535の数字を入力してください",
    "hostHelp" := "例: 0.0.0.0 や 127.0.0.1",
    "portHelp" := "1～65535 のポート番号 (例: 8443)",
    "domainHelp" := "参照用ドメイン名 (例: example.com)",
    "certfileHelp" := "証明書ファイルへのパス (例: server/cert.pem)",
    "keyfileHelp" := "鍵ファイルへのパス (例: server/key.pem)",
    "resourcePathHelp" := "静的リソースのディレクトリ (例: server/html)"
  ]

  const En: Table := map[
    "welcome" := "Welcome to the Simple HTTPS Server!",
    "editConfig" := "Edit Configuration",
    "configTitle" := "Server Configuration",
    "saveRestart" := "Save & Restart",
    "host" := "Host",
    "port" := "Port",
    "domain" := "Domain",
    "certfile" := "Certificate File",
    "keyfile" := "Key File",
    "resourcePath" := "Resource Path",
    "requiredError" := "Required field",
    "portError" := "Enter a number between 1 and 65535",
    "hostHelp" := "Address to bind the server (e.g., 0.0.0.0)",
    "portHelp" := "Port number 1-65535 (e.g., 8443)",
    "domainHelp" := "Domain name for reference (e.g., example.com)",
    "certfileHelp" := "Path to TLS certificate (e.g., server/cert.pem)",
    "keyfileHelp" := "Path to private key (e.g., server/key.pem)",
    "resourcePathHelp" := "Directory of static files (e.g., server/html)"
  ]

  const Strings: I18n.Tables := map["ja" := Ja, "en" := En]

  /** The tables have the shape the helper relies on: exactly `ja` and `en`, translating
      the same keys, with no empty text. */
  lemma IsBilingual()
    ensures I18n.Bilingual(Strings)
  {
  }
}

=== FILE: i18n.dfy ===
/**
 * The i18n helper shared by the pages: pick the initial language (URL, then stored,
 * then Japanese), switch language and relabel the page, and look up a string with the
 * key itself as fallback.
 *
 * The string tables are maps from language to key to text. The page is a record holding
 * the current language, the `localStorage` entry, the document's `lang` attribute and a
 * sequence of abstract elements. Only a table's own keys count as languages or keys.
 */
module I18n {
  import opened Wrappers

  type Table = map<string, string>
  type Tables = map<string, Table>

  const DefaultLang := "ja"

  /** JavaScript's `lang && strings[lang]`: a non-empty name of a table. */
  predicate IsKnown(tables: Tables, lang: Option<string>) {
    lang.Some? && lang.value != "" && lang.value in tables
  }

  /** The language chosen when the script loads. */
  function InitialLang(tables: Tables, urlLang: Option<string>, storedLang: Option<string>): (r: string)
    ensures IsKnown(tables, urlLang) ==> r == urlLang.value
    ensures !IsKnown(tables, urlLang) && IsKnown(tables, storedLang) ==> r == storedLang.value
    ensures !IsKnown(tables, urlLang) && !IsKnown(tables, storedLang) ==> r == DefaultLang
    ensures DefaultLang in tables ==> r in tables
  {
    if IsKnown(tables, urlLang) then urlLang.value
    else if IsKnown(tables, storedLang) then storedLang.value
    else DefaultLang
  }

  /** A table entry, when it is present and non-empty (JavaScript truthiness of a string). */
  function Lookup(table: Table, key: string): (r: Option<string>)
    ensures r.Some? <==> key in table && table[key] != ""
    ensures r.Some? ==> r.value == table[key] && r.value != ""
  {
    if key in table && table[key] != "" then Some(table[key]) else None
  }

  /** `t(key)`: the current language's text for `key`, or `key` itself. */
  function T(tables: Tables, lang: string, key: string): (r: string)
    requires lang in tables
    ensures key in tables[lang] && tables[lang][key] != "" ==> r == tables[lang][key]
    ensures !(key in tables[lang] && tables[lang][key] != "") ==> r == key
    ensures key != "" ==> r != ""
  {
    match Lookup(tables[lang], key)
    case Some(s) => s
    case None => key
  }

  /** An element of the page, reduced to what the helper reads and writes. */
  datatype Element = Element(
    tag: string,               // upper-case tag name
    i18nKey: Option<string>,   // the `data-i18n` attribute
    helpKey: Option<string>,   // the `data-help-key` attribute
    placeholder: string,
    textContent: string,
    dataHelp: Option<string>)  // the `data-help` attribute

  /** Whether a translated label goes to the placeholder rather than the text. */
  predicate TakesPlaceholder(e: Element) {
    e.tag == "INPUT" || e.tag == "TEXTAREA"
  }

  /** Relabel one element with a language's table: the `data-i18n` text goes to the
      placeholder of inputs and text areas and to the text of anything else, and is skipped
      when missing or empty; `data-help` becomes the help text or `''`. */
  function Localize(table: Table, e: Element): (r: Element)
    ensures r.tag == e.tag && r.i18nKey == e.i18nKey && r.helpKey == e.helpKey
    ensures e.i18nKey.None? || Lookup(table, e.i18nKey.value).None? ==>
              r.placeholder == e.placeholder && r.textContent == e.textContent
    ensures e.i18nKey.Some? && Lookup(table, e.i18nKey.value).Some? ==>
              if TakesPlaceholder(e) then r.placeholder == table[e.i18nKey.value] && r.textContent == e.textContent
              else r.textContent == table[e.i18nKey.value] && r.placeholder == e.placeholder
    ensures e.helpKey.None? ==> r.dataHelp == e.dataHelp
    ensures e.helpKey.Some? && Lookup(table, e.helpKey.value).Some? ==> r.dataHelp == Some(table[e.helpKey.value])
    ensures e.helpKey.Some? && Lookup(table, e.helpKey.value).None? ==> r.dataHelp == Some("")
  {
    var labelled :=
      match e.i18nKey
      case None => e
      case Some(k) =>
        match Lookup(table, k)
        case None => e
        case Some(s) => if TakesPlaceholder(e) then e.(placeholder := s) else e.(textContent := s);
    match e.helpKey
    case None => labelled
    case Some(k) =>
      labelled.(dataHelp := Some(match Lookup(table, k) case Some(s) => s case None => ""))
  }

  /** The page state the helper owns. */
  datatype Page = Page(
    currentLang: string,
    storedLang: Option<string>,   // `localStorage.getItem('lang')`
    documentLang: string,         // `document.documentElement.lang`
    elements: seq<Element>)

  function LocalizeAll(table: Table, es: seq<Element>): (r: seq<Element>)
    ensures |r| == |es|
    ensures forall i :: 0 <= i < |es| ==> r[i] == Localize(table, es[i])
  {
    seq(|es|, i requires 0 <= i < |es| => Localize(table, es[i]))
  }

  /** `setLang(lang)`: ignored for an unknown language; otherwise the language becomes
      current, is stored, is set on the document, and every element is relabelled. */
  function SetLang(tables: Tables, p: Page, lang: string): (r: Page)
    ensures lang !in tables ==> r == p
    ensures lang in tables ==>
              && r.currentLang == lang
              && r.storedLang == Some(lang)
              && r.documentLang == lang
              && |r.elements| == |p.elements|
              && forall i :: 0 <= i < |p.elements| ==> r.elements[i] == Localize(tables[lang], p.elements[i])
  {
    if lang !in tables then p
    else Page(lang, Some(lang), lang, LocalizeAll(tables[lang], p.elements))
  }

  /** Loading a page: pick the initial language, then `setLang(currentLang)` once the
      document is ready. */
  function Load(tables: Tables, urlLang: Option<string>, storedLang: Option<string>,
                documentLang: string, elements: seq<Element>): (r: Page)
    requires DefaultLang in tables
    ensures r.currentLang in tables
    ensures r.currentLang == InitialLang(tables, urlLang, storedLang)
    ensures r.storedLang == Some(r.currentLang)
    ensures r.documentLang == r.currentLang
    ensures |r.elements| == |elements|
    ensures forall i :: 0 <= i < |elements| ==> r.elements[i] == Localize(tables[r.currentLang], elements[i])
  {
    var lang := InitialLang(tables, urlLang, storedLang);
    SetLang(tables, Page(lang, storedLang, documentLang, elements), lang)
  }

  const OtherLang := "en"

  /** The shape of both helpers' tables: exactly Japanese and English, translating the same
      keys, with no empty text. */
  ghost predicate Bilingual(tables: Tables) {
    && tables.Keys == {DefaultLang, OtherLang}
    && tables[DefaultLang].Keys == tables[OtherLang].Keys
    && (forall k :: k in tables[DefaultLang] ==> tables[DefaultLang][k] != "")
    && (forall k :: k in tables[OtherLang] ==> tables[OtherLang][k] != "")
  }

  /** With two tables the initial language is `ja` or `en`: the URL's when it names one
      of them, otherwise English only when English is stored. */
  lemma BilingualInitialLang(tables: Tables, urlLang: Option<string>, storedLang: Option<string>)
    requires Bilingual(tables)
    ensures var r := InitialLang(tables, urlLang, storedLang);
            && (r == DefaultLang || r == OtherLang)
            && (urlLang == Some(DefaultLang) || urlLang == Some(OtherLang) ==> r == urlLang.value)
            && (urlLang != Some(DefaultLang) && urlLang != Some(OtherLang) ==>
                  r == (if storedLang == Some(OtherLang) then OtherLang else DefaultLang))
  {
  }

  /** With two tables only `ja` and `en` switch the page; anything else is ignored. */
  lemma BilingualSetLang(tables: Tables, p: Page, lang: string)
    requires Bilingual(tables)
    ensures lang != DefaultLang && lang != OtherLang ==> SetLang(tables, p, lang) == p
    ensures lang == DefaultLang || lang == OtherLang ==>
              var r := SetLang(tables, p, lang);
              r.currentLang == lang && r.storedLang == Some(lang) && r.documentLang == lang
  {
  }

  /** With two tables a key of the tables gets its text in whichever language is current,
      never the key itself; any other key comes back unchanged. */
  lemma BilingualT(tables: Tables, lang: string, key: string)
    requires Bilingual(tables)
    requires lang in tables
    ensures key in tables[DefaultLang] ==> T(tables, lang, key) == tables[lang][key] && T(tables, lang, key) != ""
    ensures key !in tables[DefaultLang] ==> T(tables, lang, key) == key
  {
  }

  /** The language survives a reload: with no language in the URL, the page loads again in
      the language the previous load stored. */
  lemma ReloadKeepsLanguage(tables: Tables, urlLang: Option<string>, storedLang: Option<string>,
                            documentLang: string, elements: seq<Element>)
    requires DefaultLang in tables
    ensures var p := Load(tables, urlLang, storedLang, documentLang, elements);
            Load(tables, None, p.storedLang, p.documentLang, p.elements).currentLang == p.currentLang
  {
  }

  /** After `setLang(lang)` every labelled element shows what `t` gives for its key. */
  lemma ShownTextAgreesWithT(tables: Tables, p: Page, lang: string, i: nat)
    requires lang in tables
    requires i < |p.elements|
    requires p.elements[i].i18nKey.Some?
    requires Lookup(tables[lang], p.elements[i].i18nKey.value).Some?
    ensures var r := SetLang(tables, p, lang);
            var e := r.elements[i];
            var shown := if TakesPlaceholder(e) then e.placeholder else e.textContent;
            shown == T(tables, r.currentLang, e.i18nKey.value)
  {
  }

  /** Relabelling is idempotent: a second `setLang` with the same language changes nothing. */
  lemma {:induction false} SetLangIdempotent(tables: Tables, p: Page, lang: string)
    ensures SetLang(tables, SetLang(tables, p, lang), lang) == SetLang(tables, p, lang)
  {
    if lang in tables {
      var r := SetLang(tables, p, lang);
      var r2 := SetLang(tables, r, lang);
      assert r2.elements == r.elements by {
        forall i | 0 <= i < |r.elements|
          ensures r2.elements[i] == r.elements[i]
        {
          LocalizeIdempotent(tables[lang], p.elements[i]);
        }
      }
    }
  }

  lemma LocalizeIdempotent(table: Table, e: Element)
    ensures Localize(table, Localize(table, e)) == Localize(table, e)
  {
  }

  /** Every element that `table` labels is also labelled by `table'`. */
  ghost predicate CoversLabels(table: Table, table': Table, es: seq<Element>) {
    forall i :: 0 <= i < |es| ==>
      (es[i].i18nKey.Some? && Lookup(table, es[i].i18nKey.value).Some? ==> Lookup(table', es[i].i18nKey.value).Some?)
  }

  /** Switching language erases the previous one: when the new language labels whatever the
      old one labelled, switching to `l1` and then to `l2` gives the same page as switching
      to `l2` directly. */
  lemma {:induction false} LastSwitchWins(tables: Tables, p: Page, l1: string, l2: string)
    requires l1 in tables && l2 in tables
    requires CoversLabels(tables[l1], tables[l2], p.elements)
    ensures SetLang(tables, SetLang(tables, p, l1), l2) == SetLang(tables, p, l2)
  {
    var a := SetLang(tables, SetLang(tables, p, l1), l2);
    var b := SetLang(tables, p, l2);
    assert a.elements == b.elements by {
      forall i | 0 <= i < |p.elements|
        ensures a.elements[i] == b.elements[i]
      {
        var e := p.elements[i];
        assert e.i18nKey.Some? && Lookup(tables[l1], e.i18nKey.value).Some? ==>
               Lookup(tables[l2], e.i18nKey.value).Some?;
      }
    }
  }
}

=== FILE: json.dfy ===
/** Decoded JSON/YAML values, as held by the server's configuration dictionary. */
module Json {

  /** A JSON value after decoding. Numbers are integers: floating point is not modelled. */
  datatype Value =
    | Null
    | Bool(b: bool)
    | Num(n: int)
    | Str(s: string)
    | Arr(items: seq<Value>)
    | Obj(fields: map<string, Value>)
}

=== FILE: lifecycle.dfy ===
/**
 * `run_server`: load the configuration, derive the listener settings (with defaults),
 * serve until the listener is shut down, and go round again, after reloading the
 * configuration from its file, exactly when a request asked for a restart.
 *
 * The loop is a step function over a state record. TLS, socket binding and the
 * shutdown thread are not modelled: "serving" is an abstract phase, and the shutdown
 * the restart request triggers is the `ServeReturned` event.
 */
module Lifecycle {
  import opened Wrappers
  import opened Json
  import opened Decimal
  import opened ConfigServer
  import opened ConfigKeys

  const DefaultHost := "0.0.0.0"
  const DefaultPort := 443
  const DefaultResourcePath := "."

  /** What one turn of the loop reads from the configuration before binding. */
  datatype Settings = Settings(
    host: Value,
    port: int,
    resourcePath: Value,
    certfile: Value,
    keyfile: Value)    // `Null` when absent: the certificate file then holds the key

  /** Why `run_server` stops with an exception. */
  datatype StartupError =
    | UnreadableConfig(path: string)   // the configuration file could not be opened
    | BadPort(reason: IntError)        // `int(port)` raised
    | MissingCertfile                  // `CONFIG['certfile']` raised `KeyError`

  /** The settings of one loop turn: `host`, `port`, `resource_path` and `keyfile` have
      defaults, `certfile` is required; `port` is converted first, so a bad port is
      reported before a missing certificate. */
  function EffectiveSettings(c: Config): (r: Result<Settings, StartupError>)
    ensures r.Success? <==> PyInt(Get(c, PortKey, Num(DefaultPort))).Success? && CertfileKey in c
    ensures PyInt(Get(c, PortKey, Num(DefaultPort))).Failure? ==>
              r == Failure(BadPort(PyInt(Get(c, PortKey, Num(DefaultPort))).error))
    ensures r.Success? ==>
              && r.value.certfile == c[CertfileKey]
              && (HostKey !in c ==> r.value.host == Str(DefaultHost))
              && (HostKey in c ==> r.value.host == c[HostKey])
              && (PortKey !in c ==> r.value.port == DefaultPort)
              && (PortKey in c ==> PyInt(c[PortKey]) == Success(r.value.port))
              && (ResourcePathKey !in c ==> r.value.resourcePath == Str(DefaultResourcePath))
              && (ResourcePathKey in c ==> r.value.resourcePath == c[ResourcePathKey])
              && (KeyfileKey !in c ==> r.value.keyfile == Null)
              && (KeyfileKey in c ==> r.value.keyfile == c[KeyfileKey])
  {
    var host := Get(c, HostKey, Str(DefaultHost));
    match PyInt(Get(c, PortKey, Num(DefaultPort)))
    case Failure(e) => Failure(BadPort(e))
    case Success(port) =>
      var resourcePath := Get(c, ResourcePathKey, Str(DefaultResourcePath));
      if CertfileKey !in c then Failure(MissingCertfile)
      else Success(Settings(host, port, resourcePath, c[CertfileKey], Get(c, KeyfileKey, Null)))
  }

  /** A configuration holding only a certificate path gets every default. */
  lemma DefaultsApply(cert: Value)
    ensures EffectiveSettings(map[CertfileKey := cert])
            == Success(Settings(Str("0.0.0.0"), 443, Str("."), cert, Null))
  {
  }

  /** Without `certfile` the loop cannot build a listener; once the port converts, the
      missing certificate is the error. */
  lemma CertfileRequired(c: Config)
    requires CertfileKey !in c
    ensures EffectiveSettings(c).Failure?
    ensures PyInt(Get(c, PortKey, Num(DefaultPort))).Success? ==> EffectiveSettings(c) == Failure(MissingCertfile)
  {
  }

  /** Where `run_server` is. In the program `serve_forever` only returns after the shutdown
      that a restart request starts once it has set the flag, so `Exited` is reached only
      by a stop from outside (an interrupt), which the model lets happen at any time. */
  datatype Phase =
    | Binding                                                  // top of the loop
    | Serving(settings: Settings, restartAfterShutdown: bool)  // inside `serve_forever`
    | Exited                                                   // the loop ended without a restart (see below)
    | Crashed(error: StartupError)                             // an exception left `run_server`

  /** The server: the global configuration, its file, and the loop's phase. */
  datatype Server = Server(config: Config, configPath: string, disk: Disk, cwd: string, phase: Phase)

  /** What can happen to the server next. */
  datatype Event =
    | Listen                 // build the listener for this turn
    | Receive(req: Request)  // one request handled while serving
    | ServeReturned          // `serve_forever` returned (after `shutdown`)

  /** The start of `run_server`: read the configuration file and enter the loop. */
  function Start(disk: Disk, configPath: string, cwd: string): (s: Server)
    ensures s.phase == Binding || s.phase == Crashed(UnreadableConfig(configPath))
    ensures s.phase == Binding <==> configPath != "" && configPath in disk
    ensures s.phase == Binding ==> s.config == disk[configPath]
  {
    match LoadConfig(disk, configPath)
    case Success(c) => Server(c, configPath, disk, cwd, Binding)
    case Failure(_) => Server(map[], configPath, disk, cwd, Crashed(UnreadableConfig(configPath)))
  }

  /** The `directory` the factory of this loop turn hands to each new handler: the live
      `resource_path`, falling back to the one read at the top of the turn. */
  function FactoryDirectory(s: Server, settings: Settings): (d: Value)
    ensures ResourcePathKey in s.config ==> d == s.config[ResourcePathKey]
    ensures ResourcePathKey !in s.config ==> d == settings.resourcePath
  {
    Get(s.config, ResourcePathKey, settings.resourcePath)
  }

  /** The directory a request handler of this loop turn ends up serving, or the error that
      building it raises: a `null` becomes the working directory, and anything that is not
      a string cannot be a path. */
  function RequestDirectory(s: Server, settings: Settings): (r: Result<string, HandlerError>)
    ensures FactoryDirectory(s, settings).Str? ==> r == Success(FactoryDirectory(s, settings).s)
    ensures FactoryDirectory(s, settings) == Null ==> r == Success(s.cwd)
    ensures r.Failure? <==> FactoryDirectory(s, settings) != Null && !FactoryDirectory(s, settings).Str?
  {
    HandlerDirectory(s.config, FactoryDirectory(s, settings), s.cwd)
  }

  /** One step of the loop. Terminal phases and events that do not apply leave the
      server as it is. */
  function Step(s: Server, e: Event): (r: Server)
    ensures r.configPath == s.configPath && r.cwd == s.cwd
    // binding: only `Listen` moves, to serving the turn's effective settings with no restart
    // pending, or to a crash carrying the error that reading them raised
    ensures s.phase.Binding? && e.Listen? ==>
              (r.phase.Serving? && !r.phase.restartAfterShutdown) || r.phase.Crashed?
    ensures s.phase.Binding? && e.Listen? ==>
              && (r.phase.Serving? <==> EffectiveSettings(s.config).Success?)
              && (r.phase.Serving? ==> r.phase.settings == EffectiveSettings(s.config).value)
              && (r.phase.Crashed? ==> r.phase.error == EffectiveSettings(s.config).error)
    ensures s.phase.Binding? && !e.Listen? ==> r == s
    // serving: a request keeps the settings, and a pending restart stays pending
    ensures s.phase.Serving? && e.Receive? ==>
              && r.phase.Serving?
              && r.phase.settings == s.phase.settings
              && (s.phase.restartAfterShutdown ==> r.phase.restartAfterShutdown)
    // serving returns: rebind iff a restart is pending and the file still loads, with the
    // reloaded configuration; an unreadable file crashes the loop
    ensures s.phase.Serving? && e.ServeReturned? ==>
              && (r.phase == Binding <==> s.phase.restartAfterShutdown && LoadConfig(s.disk, s.configPath).Success?)
              && (!s.phase.restartAfterShutdown ==> r.phase == Exited && r.config == s.config)
    ensures s.phase.Serving? && e.ServeReturned? && s.phase.restartAfterShutdown ==>
              if LoadConfig(s.disk, s.configPath).Success? then r.config == LoadConfig(s.disk, s.configPath).value
              else r.phase == Crashed(UnreadableConfig(s.configPath))
    ensures s.phase.Serving? && e.Listen? ==> r == s
    // a stopped server stays as it is
    ensures s.phase.Exited? || s.phase.Crashed? ==> r == s
  {
    match (s.phase, e)
    case (Binding, Listen) =>
      (match EffectiveSettings(s.config)
       case Success(settings) => s.(phase := Serving(settings, false))
       case Failure(err) => s.(phase := Crashed(err)))
    case (Serving(settings, flag), Receive(req)) =>
      var h := Handle(s.config, s.configPath, s.disk, FactoryDirectory(s, settings), s.cwd, req);
      s.(config := h.config, disk := h.disk, phase := Serving(settings, flag || h.restart))
    case (Serving(_, flag), ServeReturned) =>
      if flag then
        (match LoadConfig(s.disk, s.configPath)
         case Success(c) => s.(config := c, phase := Binding)
         case Failure(_) => s.(phase := Crashed(UnreadableConfig(s.configPath))))
      else s.(phase := Exited)
    case _ => s
  }

  /** Steps through a sequence of events. A server that has stopped ignores the rest, and
      the configuration file and working directory never change. */
  function Run(s: Server, events: seq<Event>): (r: Server)
    ensures r.configPath == s.configPath && r.cwd == s.cwd
    ensures s.phase.Exited? || s.phase.Crashed? ==> r == s
    ensures r.phase.Binding? || r.phase.Serving? ==> s.phase.Binding? || s.phase.Serving?
    decreases |events|
  {
    if events == [] then s else Run(Step(s, events[0]), events[1..])
  }

  /** The configuration file holds exactly the in-memory configuration. */
  ghost predicate Persisted(s: Server) {
    s.configPath != "" && s.configPath in s.disk && s.disk[s.configPath] == s.config
  }

  /** A successful start leaves memory and file in agreement. */
  lemma StartPersisted(disk: Disk, configPath: string, cwd: string)
    requires Start(disk, configPath, cwd).phase == Binding
    ensures Persisted(Start(disk, configPath, cwd))
  {
  }

  /** Every step keeps the file equal to the in-memory configuration. */
  lemma StepPreservesPersisted(s: Server, e: Event)
    requires Persisted(s)
    ensures Persisted(Step(s, e))
  {
    match (s.phase, e)
    case (Serving(settings, flag), Receive(req)) =>
      var d := RequestDirectory(s, settings);
      if d.Success? && req.verb == "POST" && req.path == ConfigRoute {
        var h := Handle(s.config, s.configPath, s.disk, FactoryDirectory(s, settings), s.cwd, req);
        match PostConfig(s.config, s.configPath, s.disk, Str(d.value), req.body)
        case Success(u) =>
          assert h.disk == SaveConfig(s.disk, s.configPath, u.config);
        case Failure(_) =>
      }
    case _ =>
  }

  /** However many events happen, the file never lags behind memory. */
  lemma {:induction false} RunPreservesPersisted(s: Server, events: seq<Event>)
    requires Persisted(s)
    ensures Persisted(Run(s, events))
    decreases |events|
  {
    if events != [] {
      StepPreservesPersisted(s, events[0]);
      RunPreservesPersisted(Step(s, events[0]), events[1..]);
    }
  }

  /** When `serve_forever` returns, the loop goes round again iff the restart flag was set,
      and then with the configuration read back from the file. */
  lemma RestartIffFlagged(s: Server, settings: Settings, flag: bool)
    requires Persisted(s)
    requires s.phase == Serving(settings, flag)
    ensures Step(s, ServeReturned).phase == (if flag then Binding else Exited)
    ensures Step(s, ServeReturned).config == s.disk[s.configPath]
  {
  }

  /** A request sets the restart flag iff its handler can be built and it is a `POST /config`
      whose object carries a truthy `restart`; once set, the flag stays set until the listener
      stops. */
  lemma RestartFlagOnlyFromDirective(s: Server, settings: Settings, flag: bool, req: Request)
    requires s.phase == Serving(settings, flag)
    ensures Step(s, Receive(req)).phase.Serving?
    ensures Step(s, Receive(req)).phase.restartAfterShutdown <==>
              flag || (RequestDirectory(s, settings).Success?
                       && req.verb == "POST" && req.path == ConfigRoute && BodyObject(req.body).Success?
                       && RestartKey in BodyObject(req.body).value
                       && Truthy(BodyObject(req.body).value[RestartKey]))
  {
    var d := RequestDirectory(s, settings);
    if d.Success? && req.verb == "POST" && req.path == ConfigRoute {
      match PostConfig(s.config, s.configPath, s.disk, Str(d.value), req.body)
      case Success(u) =>
      case Failure(_) =>
    }
  }

  /** `GET /config` while serving answers with exactly the current configuration when its
      handler can be built, and raises otherwise; either way nothing changes. */
  lemma GetConfigReturnsCurrent(s: Server, settings: Settings, flag: bool)
    requires s.phase == Serving(settings, flag)
    ensures var h := Handle(s.config, s.configPath, s.disk, FactoryDirectory(s, settings), s.cwd,
                            Request("GET", ConfigRoute, NoBody));
            h.reply == (if RequestDirectory(s, settings).Success? then ConfigJson(s.config)
                        else Raised(UnusableDirectory))
    ensures Step(s, Receive(Request("GET", ConfigRoute, NoBody))) == s
  {
  }

  /** A new string `resource_path` reaches the very next request of the same loop turn,
      because each handler is built from the live configuration. */
  lemma ResourcePathAppliesToNextRequest(s: Server, settings: Settings, flag: bool, fields: map<string, Value>)
    requires s.phase == Serving(settings, flag)
    requires RequestDirectory(s, settings).Success?
    requires ResourcePathKey in fields && fields[ResourcePathKey].Str?
    ensures var s' := Step(s, Receive(Request("POST", ConfigRoute, Parsed(Obj(fields)))));
            && s'.phase.Serving?
            && RequestDirectory(s', s'.phase.settings) == Success(fields[ResourcePathKey].s)
  {
    var d := RequestDirectory(s, settings);
    var u := PostConfig(s.config, s.configPath, s.disk, Str(d.value), Parsed(Obj(fields))).value;
    assert ResourcePathKey != RestartKey;
    assert u.config[ResourcePathKey] == fields[ResourcePathKey];
  }

  /** A saved `resource_path` that is neither a string nor `null`, with memory and file in
      agreement: no handler can be built any more. */
  ghost predicate Wedged(s: Server) {
    && Persisted(s)
    && ResourcePathKey in s.config
    && s.config[ResourcePathKey] != Null && !s.config[ResourcePathKey].Str?
  }

  /** Posting such a `resource_path` wedges a serving server. */
  lemma UnusableResourcePathWedges(s: Server, settings: Settings, flag: bool, fields: map<string, Value>)
    requires Persisted(s)
    requires s.phase == Serving(settings, flag)
    requires RequestDirectory(s, settings).Success?
    requires ResourcePathKey in fields && fields[ResourcePathKey] != Null && !fields[ResourcePathKey].Str?
    ensures var s' := Step(s, Receive(Request("POST", ConfigRoute, Parsed(Obj(fields)))));
            && s'.phase.Serving?
            && s'.config[ResourcePathKey] == fields[ResourcePathKey]
            && RequestDirectory(s', s'.phase.settings).Failure?
            && Wedged(s')
  {
    var req := Request("POST", ConfigRoute, Parsed(Obj(fields)));
    var d := RequestDirectory(s, settings);
    var u := PostConfig(s.config, s.configPath, s.disk, Str(d.value), Parsed(Obj(fields))).value;
    assert ResourcePathKey != RestartKey;
    assert u.config[ResourcePathKey] == fields[ResourcePathKey];
    StepPreservesPersisted(s, Receive(req));
  }

  /** A wedged server answers every request by raising and never changes its configuration,
      not even across a restart, which reloads the same file. */
  lemma WedgedStep(s: Server, e: Event)
    requires Wedged(s)
    ensures Step(s, e).config == s.config
    ensures Wedged(Step(s, e))
    ensures s.phase.Serving? && e.Receive? ==> Step(s, e) == s
  {
    StepPreservesPersisted(s, e);
  }

  /** However many events follow, a wedged server stays wedged with the same configuration. */
  lemma {:induction false} WedgedRun(s: Server, events: seq<Event>)
    requires Wedged(s)
    ensures Run(s, events).config == s.config
    ensures Wedged(Run(s, events))
    decreases |events|
  {
    if events != [] {
      WedgedStep(s, events[0]);
      WedgedRun(Step(s, events[0]), events[1..]);
    }
  }
}

=== FILE: round_trip.dfy ===
/**
 * The editor page and the server together: a submission the page accepts is merged by
 * `POST /config`, asks for a restart, and the next turn of the server loop binds with
 * exactly the values the page sent.
 */
module RoundTrip {
  import opened Wrappers
  import opened Json
  import opened Decimal
  import opened ConfigServer
  import opened Lifecycle
  import opened ConfigKeys
  import ConfigForm
  import HtmlI18n
  import I18n

  /** The settings the server derives from an accepted submission. */
  function SubmittedSettings(values: map<string, string>): Settings
    requires ConfigForm.Acceptable(values)
  {
    Settings(Str(values[HostKey]), ValueOf(values[PortKey]), Str(values[ResourcePathKey]),
             Str(values[CertfileKey]), Str(values[KeyfileKey]))
  }

  /** The server's configuration holds the five values the server reads, as the page sent them. */
  ghost predicate HoldsSubmitted(m: Config, values: map<string, string>)
    requires ConfigForm.Acceptable(values)
  {
    && HostKey in m && m[HostKey] == Str(values[HostKey])
    && PortKey in m && m[PortKey] == Str(values[PortKey])
    && ResourcePathKey in m && m[ResourcePathKey] == Str(values[ResourcePathKey])
    && CertfileKey in m && m[CertfileKey] == Str(values[CertfileKey])
    && KeyfileKey in m && m[KeyfileKey] == Str(values[KeyfileKey])
  }

  /** Posting an accepted submission merges the six values, asks for a restart and keeps
      `restart` out of the configuration. */
  lemma AcceptedSubmissionMerges(c: Config, configPath: string, disk: Disk, directory: Value,
                                 values: map<string, string>)
    requires ConfigForm.Acceptable(values)
    ensures var r := PostConfig(c, configPath, disk, directory, Parsed(Obj(ConfigForm.Payload(values))));
            && r.Success?
            && r.value.restart
            && (forall k :: k in ConfigForm.Payload(values) && k != RestartKey ==>
                  k in values && r.value.config[k] == Str(values[k]))
            && (RestartKey in r.value.config <==> RestartKey in c)
            && HoldsSubmitted(r.value.config, values)
  {
  }

  /** A configuration holding the submitted values yields the settings the page checked:
      the port within 1..65535 and the certificate it named. */
  lemma SubmittedValuesBind(m: Config, values: map<string, string>)
    requires ConfigForm.Acceptable(values)
    requires HoldsSubmitted(m, values)
    ensures EffectiveSettings(m) == Success(SubmittedSettings(values))
    ensures 1 <= SubmittedSettings(values).port <= 65535
  {
    var port := values[PortKey];
    assert PyInt(Str(port)) == Success(ValueOf(port));
  }

  /** Receiving an accepted submission while serving, on a handler that can be built, merges
      it, sets the restart flag, and leaves the submitted path as every later handler's
      directory. */
  lemma SubmissionReceived(s: Server, settings: Settings, flag: bool, values: map<string, string>)
    requires Persisted(s)
    requires s.phase == Serving(settings, flag)
    requires RequestDirectory(s, settings).Success?
    requires ConfigForm.Acceptable(values)
    ensures var s1 := Step(s, Receive(Request("POST", ConfigRoute, Parsed(Obj(ConfigForm.Payload(values))))));
            && s1.phase == Serving(settings, true)
            && Persisted(s1)
            && HoldsSubmitted(s1.config, values)
            && RequestDirectory(s1, settings) == Success(values[ResourcePathKey])
  {
    var req := Request("POST", ConfigRoute, Parsed(Obj(ConfigForm.Payload(values))));
    AcceptedSubmissionMerges(s.config, s.configPath, s.disk, Str(RequestDirectory(s, settings).value), values);
    StepPreservesPersisted(s, Receive(req));
  }

  /** With a restart pending and the submitted values on file, shutting down and rebuilding
      serves with the submitted settings. */
  lemma RestartRebinds(s1: Server, settings: Settings, values: map<string, string>)
    requires Persisted(s1)
    requires s1.phase == Serving(settings, true)
    requires ConfigForm.Acceptable(values)
    requires HoldsSubmitted(s1.config, values)
    ensures var s3 := Step(Step(s1, ServeReturned), Listen);
            && s3.phase == Serving(SubmittedSettings(values), false)
            && Persisted(s3)
            && RequestDirectory(s3, SubmittedSettings(values)) == Success(values[ResourcePathKey])
  {
    var s2 := Step(s1, ServeReturned);
    RestartIffFlagged(s1, settings, true);
    StepPreservesPersisted(s1, ServeReturned);
    SubmittedValuesBind(s2.config, values);
    StepPreservesPersisted(s2, Listen);
  }

  /** The whole restart: an accepted submission posted while serving, the shutdown it
      triggers, and the rebuild leave the server serving with the submitted settings,
      its file and memory still in agreement, no restart pending, and its handlers serving
      the submitted resource path. */
  lemma SubmissionRestartsWithSubmittedSettings(s: Server, settings: Settings, flag: bool,
                                                values: map<string, string>)
    requires Persisted(s)
    requires s.phase == Serving(settings, flag)
    requires RequestDirectory(s, settings).Success?
    requires ConfigForm.Acceptable(values)
    ensures var s1 := Step(s, Receive(Request("POST", ConfigRoute, Parsed(Obj(ConfigForm.Payload(values))))));
            var s3 := Step(Step(s1, ServeReturned), Listen);
            && s1.phase == Serving(settings, true)
            && s3.phase == Serving(SubmittedSettings(values), false)
            && Persisted(s3)
            && RequestDirectory(s3, SubmittedSettings(values)) == Success(values[ResourcePathKey])
  {
    SubmissionReceived(s, settings, flag, values);
    var s1 := Step(s, Receive(Request("POST", ConfigRoute, Parsed(Obj(ConfigForm.Payload(values))))));
    RestartRebinds(s1, settings, values);
  }

  /** A port the server holds as a number in 1..65535 is shown by the page without an error,
      and submitting it gives the server the same port back. */
  lemma ServedPortSurvivesTheForm(n: int)
    requires 1 <= n <= 65535
    ensures var v := ConfigForm.Clean(ConfigForm.ToFormString(Num(n)));
            && ConfigForm.FieldValid(PortKey, v)
            && PyInt(Str(v)) == Success(n)
  {
    ConfigForm.ConfiguredPortIsAccepted(n);
  }

  /** The editor page's error messages are real translations in both languages, never the
      bare message keys. */
  lemma FormErrorsAreTranslated(lang: string, name: string, v: string)
    requires lang == "ja" || lang == "en"
    ensures var err := ConfigForm.FieldError(HtmlI18n.Strings, lang, name, v);
            && (name == PortKey && !ConfigForm.PortAcceptable(v) ==>
                  err == HtmlI18n.Strings[lang][ConfigForm.PortErrorKey] && err != ConfigForm.PortErrorKey)
            && (name != PortKey && v == "" ==>
                  err == HtmlI18n.Strings[lang][ConfigForm.RequiredErrorKey] && err != ConfigForm.RequiredErrorKey)
  {
    HtmlI18n.IsBilingual();
    I18n.BilingualT(HtmlI18n.Strings, lang, ConfigForm.PortErrorKey);
    I18n.BilingualT(HtmlI18n.Strings, lang, ConfigForm.RequiredErrorKey);
  }
}

=== FILE: system_i18n.dfy ===
/**
 * The i18n helper as shipped with the pages under `server/resources/__system`: its Japanese
 * and English string tables and the facts about them that the helper relies on. It has six
 * more entries than the editor's copy: the README viewer labels and three server error texts.
 */
module SystemI18n {
  import I18n

  type Table = I18n.Table

  const Ja: Table := map[
    "welcome" := "ようこそ Simple HTTPS Server へ!",
    "editConfig" := "設定編集",
    "configTitle" := "サーバー設定",
    "saveRestart" := "保存して再起動",
    "host" := "ホスト",
    "port" := "ポート",
    "domain" := "ドメイン",
    "certfile" := "証明書ファイル",
    "keyfile" := "鍵ファイル",
    "resourcePath" := "リソースパス",
    "requiredError" := "必須項目です",
    "portError" := "1～65535の数字を入力してください",
    "portInUse" := "指定されたポートは使用中です",
    "fileNotFound" := "ファイルが見つかりません",
    "dirNotFound" := "ディレクトリが見つかりません",
    "hostHelp" := "例: 0.0.0.0 や 127.0.0.1",
    "portHelp" := "1～65535 のポート番号 (例: 8443)",
    "domainHelp" := "参照用ドメイン名 (例: example.com)",
    "certfileHelp" := "証明書ファイルへのパス (例: server/cert.pem)",
    "keyfileHelp" := "鍵ファイルへのパス (例: server/key.pem)",
    "resourcePathHelp" := "静的リソースのディレクトリ (例: server/resources)",
    "viewReadme" := "README を表示",
    "openSample" := "サンプルを開く",
    "readmeTitle" := "README"
  ]

  const En: Table := map[
    "welcome" := "Welcome to the Simple HTTPS Server!",
    "editConfig" := "Edit Configuration",
    "configTitle" := "Server Configuration",
    "saveRestart" := "Save & Restart",
    "host" := "Host",
    "port" := "Port",
    "domain" := "Domain",
    "certfile" := "Certificate File",
    "keyfile" := "Key File",
    "resourcePath" := "Resource Path",
    "requiredError" := "Required field",
    "portError" := "Enter a number between 1 and 65535",
    "portInUse" := "Specified port is already in use",
    "fileNotFound" := "File not found",
    "dirNotFound" := "Directory not found",
    "hostHelp" := "Address to bind the server (e.g., 0.0.0.0)",
    "portHelp" := "Port number 1-65535 (e.g., 8443)",
    "domainHelp" := "Domain name for reference (e.g., example.com)",
    "certfileHelp" := "Path to TLS certificate (e.g., server/cert.pem)",
    "keyfileHelp" := "Path to private key (e.g., server/key.pem)",
    "resourcePathHelp" := "Directory of static files (e.g., server/resources)",
    "viewReadme" := "View README",
    "openSample" := "Open Sample",
    "readmeTitle" := "README"
  ]

  const Strings: I18n.Tables := map["ja" := Ja, "en" := En]

  /** The tables have the shape the helper relies on: exactly `ja` and `en`, translating
      the same keys, with no empty text. */
  lemma IsBilingual()
    ensures I18n.Bilingual(Strings)
  {
  }
}

=== FILE: wrappers.dfy ===
/** Failure-carrying wrappers shared by the whole model. */
module Wrappers {

  /** An optional value: JavaScript's `null`/`undefined` or Python's `None` on the `None` side. */
  datatype Option<+T> = None | Some(value: T)

  /** The outcome of an operation that the Python or JavaScript code lets raise an exception. */
  datatype Result<+T, +E> = Success(value: T) | Failure(error: E)
}
